=== FILE: README.md ===
# Pac-Man ghost engine and round rules, in Dafny

This project models the logic of a browser Pac-Man clone. The modelled parts are:

- the movement rule shared by Pac-Man and the ghosts (tile tracking, the tile-centre window, the wall test half a tile ahead, the tunnel wrap);
- Pac-Man's buffered turning, animation counters and powered countdown;
- the keyboard map and its one-slot input buffer;
- the ghosts' shared navigation: the target refresh by mode, the legal-neighbour filter, the nearest-neighbour choice with its fixed tie order, the reversal on a mode change, and reset;
- the four chase personalities (Blinky, Pinky, Inky, Clyde);
- the game's per-update sequence: the scatter/chase timetable with the frightened override, power pellets, collisions and the escalating ghost score, pellet pickup, death, level completion and the high score.

Everything is immutable data and pure functions. The game state is a `GameRules.Game` value and one `GameRules.Update` produces the next one. The modules follow the game's JavaScript files:

| module | file | content |
|---|---|---|
| `Constants` | constants.dfy | headings, modes, tile kinds, points, speeds, the timetable |
| `Wrappers` | wrappers.dfy | `Option` |
| `Grid` | grid.dfy | tiles, the maze as a tile-kind function plus a pellet counter |
| `Entities` | entities.dfy | the shared body and its movement |
| `Input` | input.dfy | key map and input buffer |
| `Player` | player.dfy | Pac-Man |
| `Ghosts` | ghosts.dfy | ghost state, the neighbour filter, the arg-min choice |
| `Personalities` | personalities.dfy | the four ghosts and their chase targets |
| `Navigation` | navigation.dfy | target refresh, direction choice, the per-ghost update |
| `GameRules` | gamerules.dfy | the round orchestrator |

Modelling choices:

- **Positions are exact reals.** Every comparison that goes through a square root in entity.js, ghost.js and game.js is made on squared values. Clyde's "more than 8 tiles" becomes a squared distance above 64. The collision radius 0.7 becomes a squared distance below 0.49. The nearest-neighbour choice compares squared distances, which orders the candidates the same way.
- **The maze is abstract.** It is a function from tiles to tile kinds plus the pellet counter. A wall is a tile of kind `Wall` and the gate is a tile of kind `GhostGate`. Restoring the maze on level completion restores the `layout` the game started from.
- **Ghosts are updated in place, in list order.** Each ghost sees the ghosts before it as already moved in this update. Inky therefore reads Blinky's new tile (`Navigation.UpdateGhostsFrom`).
- **Ghosts may turn back without a mode change.** `getPossibleDirections` in ghost.js drops its "no reversal" filter whenever the ghost is at a tile centre, and `chooseDirection` only runs at a tile centre. So the filter never acts on a choice. `Navigation.ReversalWithoutModeChange` shows a ghost turning back with no mode change.
- **The timetable's last entry is unbounded.** It is a `Duration.Unbounded` entry rather than a floating-point infinity.

## Model

| member | source | states |
|---|---|---|
| Constants.DirectionVectors | sources/src/constants.js:10-16 | each heading is a unit vector on one axis, NONE is the zero vector, and distinct headings have distinct vectors |
| Constants.GhostPointsDouble | sources/src/constants.js:51-59 | the four ghost values start at 200 and each is twice the one before |
| Constants.ScheduleAlternates | sources/src/constants.js:61-70 | the timetable has eight entries, starts in scatter and alternates scatter and chase |
| Constants.ScheduleDurations | sources/src/constants.js:61-70 | the durations are 7, 20, 7, 20, 5, 20, 5 seconds of updates, and only the final chase entry is unbounded |
| Constants.FrightenedLasts360 | sources/src/constants.js:72 | frightened time is six seconds, 360 updates |
| Grid.Neighbour | sources/src/ghosts/ghost.js:55-58 | the neighbour along a heading is one step away, and it is the tile itself exactly for NONE |
| Grid.SqDist | sources/src/ghosts/ghost.js:70-74 | the squared tile distance is zero exactly for equal tiles |
| Grid.SetTile | sources/src/game.js:121-123 | writing a tile kind changes that tile only and leaves the pellet counter alone |
| Entities.NewEntity | sources/src/entity.js:4-12 | a new body stands on the floor of its position, with the given speed and no heading |
| Entities.UpdateTilePosition | sources/src/entity.js:14-17 | the stored tile becomes the floor of the position, and nothing else changes |
| Entities.CenterWindow | sources/src/entity.js:19-23 | "at the tile centre" means strictly between 0.4 and 0.6 into the tile on both axes |
| Entities.SnapToTileCenter | sources/src/entity.js:25-29 | snapping lands at a centre of the same tile, with a consistent tile and heading and speed kept |
| Entities.SnapIdempotent | sources/src/entity.js:25-29 | snapping twice is snapping once |
| Entities.CanMoveIsNeighbourTest | sources/src/entity.js:31-36 | for a body on its floor tile, the move test asks about the neighbouring tile; for NONE it asks about the body's own tile |
| Entities.Wrap | sources/src/entity.js:53-54 | the x position after the tunnel check lies in [-1, 28]: past -1 it re-enters at 27.5, past 28 at 0.5, otherwise it is unchanged |
| Entities.Move | sources/src/entity.js:38-58 | no heading or a wall half a tile ahead leaves the body where it is; otherwise it advances by a tenth of its speed, wraps and keeps its tile consistent; the other axis and the speed and headings are unchanged |
| Entities.DistanceSqTo | sources/src/entity.js:67-71 | the distance is zero exactly when the body's tile is the target |
| Entities.DistanceUsesTile | sources/src/entity.js:67-71 | the distance depends only on the body's tile, not its position inside it |
| Input.ToLower | sources/src/input.js:21 | lower-casing keeps the length and maps each character independently |
| Input.ToLowerIdempotent | sources/src/input.js:21 | lower-casing twice is lower-casing once |
| Input.KeyToDirection | sources/src/input.js:20-37 | each heading is recognised for exactly its arrow key and its W/S/A/D letter, in any case, and every other key gives nothing |
| Input.KeyCaseInsensitive | sources/src/input.js:20-37 | a key and its lower-case form map to the same heading |
| Input.KeyExamplesUp | sources/src/input.js:22-24 | "ArrowUp" and "W" mean UP |
| Input.KeyExamplesDown | sources/src/input.js:25-27 | "ArrowDown" and "S" mean DOWN |
| Input.KeyExamplesLeft | sources/src/input.js:28-30 | "ArrowLeft" and "A" mean LEFT |
| Input.KeyExamplesRight | sources/src/input.js:31-33 | "ArrowRight" and "D" mean RIGHT |
| Input.NewInputHandler | sources/src/input.js:4-8 | a new buffer is empty |
| Input.KeyDown | sources/src/input.js:10-18 | a recognised key overwrites the buffer with its heading, and any other key leaves the handler untouched |
| Input.ClearBuffer | sources/src/input.js:43-45 | after clearing, the buffer reads NONE |
| Input.LatestKeyWins | sources/src/input.js:10-18 | after a recognised key the buffer no longer depends on what it held before |
| Input.IgnoredKeys | sources/src/input.js:12-17 | any run of unrecognised keys leaves the handler unchanged |
| Input.LastRecognisedKeyIsBuffered | sources/src/input.js:10-18 | after a run of presses the buffer holds the heading of the last recognised key in the run |
| Player.NewPacMan | sources/src/pacman.js:5-13 | a new Pac-Man is valid, at rest, unpowered and at normal speed |
| Player.UpdateAnimation | sources/src/pacman.js:44-50 | the counter stays in 0..3 and the frame only moves when the counter wraps |
| Player.AnimationCycle | sources/src/pacman.js:44-50 | four updates from a fresh counter advance the frame by one, cyclically |
| Player.SetPowered | sources/src/pacman.js:52-56 | Pac-Man becomes powered for the given time at powered speed, and a positive time keeps him valid |
| Player.TickPower | sources/src/pacman.js:35-41 | powered time counts down by one; at zero he is unpowered at normal speed; unpowered he is unchanged; validity is kept |
| Player.PowerRunsOut | sources/src/pacman.js:35-41 | powered time of n updates lasts exactly n updates: still powered after n-1, unpowered at normal speed after n |
| Player.Steer | sources/src/pacman.js:15-30 | a buffered heading replaces the queued one; away from a centre the heading is kept; at a centre the queued heading is taken if open (emptying the buffer), otherwise he stops if his own heading is blocked; at a centre the result is NONE or an open heading |
| Player.StopsAtCentreWithoutInput | sources/src/pacman.js:22-29 | at a centre with nothing queued or buffered, Pac-Man stops even when his way ahead is open |
| Player.Update | sources/src/pacman.js:15-42 | one update keeps Pac-Man valid, takes the steering decision, moves the steered body one step through the maze, advances the animation exactly as one animation step, keeps powered speed while power time remains, and counts powered time down by one, restoring normal speed when it runs out |
| Player.Reset | sources/src/pacman.js:58-67 | reset puts Pac-Man at the given point on a consistent tile, at rest, unpowered and at normal speed, with animation kept |
| Ghosts.NewGhost | sources/src/ghosts/ghost.js:5-14 | a new ghost is at home in scatter mode aiming at its corner, with no heading and RIGHT as its previous heading |
| Ghosts.OppositeDirection | sources/src/ghosts/ghost.js:62-68 | the opposite heading is the negated vector, and NONE is its own opposite |
| Ghosts.OppositeInvolution | sources/src/ghosts/ghost.js:62-68 | reversing twice restores the heading, and no real heading is its own opposite |
| Ghosts.SetMode | sources/src/ghosts/ghost.js:88-94 | a real mode change reverses the heading and records it as the previous one; setting the same mode changes nothing |
| Ghosts.SetModeTwice | sources/src/ghosts/ghost.js:88-94 | setting a mode is idempotent, and two real changes in a row restore the heading |
| Ghosts.Reset | sources/src/ghosts/ghost.js:96-104 | reset puts the ghost at home on a consistent tile, heading RIGHT, in scatter mode at normal speed; the target tile and the queued heading are untouched |
| Ghosts.CandidatesInRankOrder | sources/src/ghosts/ghost.js:49 | the candidates are exactly the four real headings, in the order UP, DOWN, LEFT, RIGHT |
| Ghosts.FilterAllowed | sources/src/ghosts/ghost.js:52-59 | the filter keeps exactly the allowed members of its input |
| Ghosts.PossibleDirections | sources/src/ghosts/ghost.js:48-60 | a heading is possible exactly when it is real, its neighbour is neither wall nor gate, and it is not a reversal away from a centre; the result is in candidate order |
| Ghosts.FilterKeepsOrder | sources/src/ghosts/ghost.js:52-59 | filtering preserves the candidate order |
| Ghosts.AtCentreReversalAllowed | sources/src/ghosts/ghost.js:53 | at a tile centre, only walls and the gate restrict the choice |
| Ghosts.BestIndex | sources/src/ghosts/ghost.js:29-42 | the chosen index has the smallest neighbour distance, and every earlier index is strictly farther |
| Ghosts.ChooseBest | sources/src/ghosts/ghost.js:29-42 | the arg-min loop of `chooseDirection`, with an infinite start and a strict comparison, picks the earliest nearest candidate |
| Ghosts.UniqueBest | sources/src/ghosts/ghost.js:29-42 | the earliest nearest candidate is unique |
| Personalities.NewBlinky | sources/src/ghosts/blinky.js:4-7 | Blinky is red, starts at (13.5, 14.5) and scatters to (25, 0) |
| Personalities.NewPinky | sources/src/ghosts/pinky.js:5-8 | Pinky is pink, starts at (13.5, 17.5) and scatters to (2, 0) |
| Personalities.NewInky | sources/src/ghosts/inky.js:5-8 | Inky is cyan, starts at (11.5, 17.5) and scatters to (27, 35) |
| Personalities.NewClyde | sources/src/ghosts/clyde.js:4-7 | Clyde is orange, starts at (15.5, 17.5) and scatters to (0, 35) |
| Personalities.BlinkyTarget | sources/src/ghosts/blinky.js:9-11 | Blinky aims at Pac-Man's tile |
| Personalities.Ahead | sources/src/ghosts/pinky.js:14-23 | n tiles ahead along the heading, with facing UP also shifting n tiles left |
| Personalities.PinkyTarget | sources/src/ghosts/pinky.js:10-26 | Pinky aims four tiles ahead of Pac-Man, or four up and four left when he faces UP |
| Personalities.FindNamed | sources/src/ghosts/inky.js:11 | the lookup returns the first ghost with the name, and nothing exactly when no ghost has it |
| Personalities.InkyTarget | sources/src/ghosts/inky.js:10-37 | the pivot two tiles ahead of Pac-Man is the midpoint of the first Blinky's tile and Inky's target; with no Blinky, Inky aims at Pac-Man's tile |
| Personalities.InkyUsesFirstBlinky | sources/src/ghosts/inky.js:11 | only the first ghost named Blinky matters to Inky |
| Personalities.ClydeTarget | sources/src/ghosts/clyde.js:9-17 | Clyde aims at Pac-Man's tile when strictly more than 8 tiles from it (measured tile to tile), and at his corner otherwise |
| Personalities.ChaseTarget | sources/src/ghosts/ghost.js:79-80 | the chase target is the rule of the ghost's own personality; Blinky's is Pac-Man's tile, Pinky's is four tiles ahead, and Clyde's is one of Pac-Man's tile and his corner |
| Personalities.ChaseTargetDependencies | sources/src/ghosts/ghost.js:79-80 | only Inky's target depends on the other ghosts, and no target depends on a ghost's position inside its tile |
| Personalities.PinkyExamples | sources/tests/ghosts/pinky.spec.js:14-56 | with Pac-Man on (10, 10): RIGHT gives (14, 10), DOWN gives (10, 14), LEFT gives (6, 10), UP gives (6, 6) |
| Personalities.InkyExamples | sources/tests/ghosts/inky.spec.js:17-84 | with Pac-Man on (10, 10) and Blinky on (8, 8): RIGHT gives (16, 12), DOWN gives (12, 16), UP gives (8, 8); with no Blinky, Pac-Man's tile |
| Personalities.ClydeExamples | sources/tests/ghosts/clyde.spec.js:31-62 | with Clyde on (10, 10): exactly 8 tiles away or closer he retreats, and beyond 8 he chases |
| Personalities.ClydeTargetsTwoTiles | sources/tests/ghosts/clyde.spec.js:13-29 | Clyde aims only at Pac-Man's tile or (0, 35), and from (0, 0) he chases Pac-Man on (15, 15) |
| Navigation.UpdateTargetTile | sources/src/ghosts/ghost.js:76-82 | scatter aims at the corner, chase aims at the personality's target, and frightened or eaten keep the old target |
| Navigation.BestChoiceUnique | sources/src/ghosts/ghost.js:29-42 | at most one heading is nearest with the earliest rank |
| Navigation.ChooseDirection | sources/src/ghosts/ghost.js:23-46 | after the target refresh, the ghost takes the unique nearest allowed heading (earliest in UP, DOWN, LEFT, RIGHT on ties) as both heading and previous heading; with none allowed only the target changes |
| Navigation.GhostUpdate | sources/src/ghosts/ghost.js:16-21 | the ghost chooses only at a tile centre and then moves; mode, identity and home are kept, and so is tile consistency |
| Navigation.CentreChoiceIgnoresReversal | sources/src/ghosts/ghost.js:48-60 | at a centre the chosen neighbour is at least as near the target as any open neighbour, including the way back |
| Navigation.ReversalWithoutModeChange | sources/src/ghosts/ghost.js:23-60 | a scattering ghost at an open crossing with its corner behind it turns back without any mode change |
| Navigation.UpdateGhostsFrom | sources/src/game.js:60-62 | each ghost from the start index on is updated exactly once, seeing the ghosts before it as already updated and the ones after it as they were; the ghosts before the start index are kept; the number, modes, identities and tile consistency are kept |
| GameRules.NewGame | sources/src/game.js:12-39 | a new game satisfies the game invariant, with the four ghosts in order, score 0, three lives, level 1, waiting to start, and the stored high score or 10000 |
| GameRules.PressKey | sources/src/input.js:12-17 | a key press reaches the game's input buffer, and an unrecognised key changes nothing |
| GameRules.AddScore | sources/src/game.js:186-192 | the score rises by the points; the high score is the larger of the old high score and the new score |
| GameRules.SetAllModes | sources/src/game.js:138-140 | every ghost is given the same mode and no ghost moves |
| GameRules.UpdateGhostModes | sources/src/game.js:72-98 | frightened time counts down and at its end restores the current entry's mode to every ghost; otherwise an expired entry advances the cursor and broadcasts the next mode; the cursor never leaves the timetable |
| GameRules.UpdateGhostModesKeepsCursor | sources/src/game.js:72-98 | the final entry is never left, and frightened time moves neither the cursor nor the tick counter |
| GameRules.FrightenedEndsInScheduleMode | sources/src/game.js:73-81 | when frightened time ends every ghost takes the current entry's mode, which is chase on odd entries |
| GameRules.GhostEatPoints | sources/src/game.js:145-146 | the nth ghost eaten on one pellet scores 200 times 2 to the power min(n, 4) - 1 |
| GameRules.GhostEatPointsSequence | sources/src/game.js:145-146 | successive ghosts score 200, 400, 800, 1600, and 1600 from the fourth on |
| GameRules.ActivatePowerMode | sources/src/game.js:133-141 | Pac-Man is powered for 360 updates, the frightened timer starts at 360, the eaten count restarts and every ghost is frightened |
| GameRules.EatGhost | sources/src/game.js:143-148 | eating a ghost counts it, scores the escalating value, raises the high score exactly as adding that score does, and sends that ghost home, leaving the other ghosts and everything else alone |
| GameRules.ResetPositions | sources/src/game.js:161-167 | Pac-Man returns to (13.5, 23.5) and every ghost returns home, and the game waits to start |
| GameRules.EndGame | sources/src/game.js:178-184 | game over keeps the high score at least the score and never lowers it |
| GameRules.PacmanDies | sources/src/game.js:150-159 | a death costs one life; at zero lives the game ends exactly as game over does, with everybody left in place; otherwise everybody goes home and the game waits |
| GameRules.LevelComplete | sources/src/game.js:169-176 | the level rises by one, the maze is restored, Pac-Man and every ghost go home (each ghost by its own reset), and the timetable restarts; score, lives and frightened time are kept |
| GameRules.CollisionRadius | sources/src/game.js:102-106 | the squared test of `Collides` is the distance test: on a shared row or column, Pac-Man and a ghost touch exactly when they are less than 0.7 tiles apart |
| GameRules.CheckCollisionsFrom | sources/src/game.js:100-116 | the collision scan costs at most one life, never lowers the score and keeps the game invariant |
| GameRules.NoThreatNoChange | sources/src/game.js:100-116 | with no touching ghost that is not eaten, the scan changes nothing |
| GameRules.UnpoweredDiesOnce | sources/src/game.js:107-113 | an unpowered Pac-Man touched by any number of live ghosts dies exactly once: the scan's result is one death of the game as it was, so one life and no points are lost |
| GameRules.PoweredEatsAll | sources/src/game.js:107-110 | a powered Pac-Man never dies; exactly the touching ghosts that are not eaten are sent home, each scoring the next escalating value; the high score becomes the larger of the old high score and the final score once any ghost is eaten; every other field stays |
| GameRules.FourGhostsScore3000 | sources/src/game.js:143-148 | four ghosts caught on one fresh pellet count four and score 3000 |
| GameRules.CheckCollisions | sources/src/game.js:100-116 | an unpowered Pac-Man touched by a live ghost dies once, exactly as one `PacmanDies`; a powered one sends exactly the touching live ghosts home, scores their escalating values and raises the high score to match, changing nothing else; nothing changes without contact |
| GameRules.CheckDotCollection | sources/src/game.js:118-131 | a dot or pellet under Pac-Man is cleared, counted off and scored at 10 or 50 (a pellet also starts power mode); the tile under him becomes empty, and eating a dot leaves Pac-Man and the ghosts alone; other tiles and other tile kinds change nothing |
| GameRules.DotCollectionIdempotent | sources/src/game.js:118-131 | a tile is never collected twice |
| GameRules.Update | sources/src/game.js:49-70 | outside PLAYING nothing happens; otherwise the tick rises by one, the mode controller counts frightened time down by one (unless a power pellet restarts it), the game invariant is kept, the score and high score never fall, at most one life is lost, and the level rises by at most one, restarting the timetable when it does |
| GameRules.Advance | sources/src/game.js:54-62 | the first half of an update advances the tick, runs the mode controller (frightened time counts down with modes kept, its end gives every ghost the current timetable mode, an expired entry gives every ghost the next entry's mode), moves Pac-Man by one steered step, then updates each ghost once in list order against the moved Pac-Man; score, lives and level are untouched |
| GameRules.MoveAll | sources/src/game.js:58-62 | Pac-Man moves first, then each ghost in list order chases the Pac-Man that has already moved and sees the ghosts before it as already moved |
| GameRules.UpdateMovesPacMan | sources/src/game.js:49-70 | while the game stays PLAYING, an update leaves Pac-Man exactly where his own steered step put him |
| GameRules.QuietUpdateMovesEveryone | sources/src/game.js:49-70 | in an update where, after moving, nobody touches and no pellet lies under Pac-Man, Pac-Man and the ghosts end where the movement phase put them, and when frightened time ended every ghost has the timetable's current mode |
| GameRules.Resolve | sources/src/game.js:64-69 | after everybody has moved: an unpowered touch by a live ghost costs a life and a powered Pac-Man never loses one; a powered scan sends exactly the touching live ghosts home and scores their escalating values; with no touch, a dot scores 10 and is cleared, a power pellet scores 50, powers Pac-Man up for 360 updates and frightens every ghost, the last pellet raises the level, restores the maze and waits, and an empty tile changes nothing; while the game stays PLAYING Pac-Man stays where he moved; the invariant is kept |
| GameRules.LastLifeAndLastDot | sources/src/game.js:64-69 | losing the last life on the last dot ends the game and then puts it back to READY with zero lives; the next death leaves it READY at -1 lives |
| GameRules.GameOverStillCollects | sources/src/game.js:64-69 | losing the last life on a dot or power pellet ends the game, yet the dot still scores, and a power pellet still scores and powers Pac-Man up for 360 updates |
| GameRules.PoweredHighScore | sources/src/game.js:186-192 | in a powered scan the high score ends as the larger of the old high score and the final score once a ghost is eaten, and stays otherwise |
| GameRules.ResolveIntendedEndsGame | sources/src/game.js:150-159 | with the game kept over once the collisions end it, a playing game never reaches zero lives outside GAME OVER, and an update that ends the game scores nothing, leaves Pac-Man, the maze and frightened time as they were |
| GameRules.FrightenedTimeCounts | sources/src/game.js:54-81 | while frightened time runs and the level goes on, the timetable's tick counter keeps rising and its cursor stays |

## Left out

- Drawing and the HUD (renderer.js, `render`, `updateHUD`) are not modelled: they only display state.
- The main loop (main.js), which calls `update` at a fixed rate, is not modelled.
- The space-bar listener that turns READY into PLAYING (game.js lines 41-47) is not modelled: it is a DOM event handler. The model's `Update` takes the game mode as given.
- The stored high score is not modelled as storage. The value read at start is a parameter of `GameRules.NewGame`, and the store write on game over has no effect in the model.
- The maze's internals (maze.js: the layout text, parsing, out-of-range tiles) are not part of this model. The maze is an abstract tile function with a pellet counter.
- `getPixelPosition` and the tile size are not modelled: they only serve drawing.
- `currentInput` in the input handler is never read, so it is not modelled.
- The frightened, tunnel and eaten ghost speeds are recorded as constants only: the game never sets them, so no ghost uses them.
- Floating-point rounding is not modelled: positions are exact reals. So the model does not say on which update a moving body enters the tile-centre window.
- `Input.ToLower` maps only 'A'..'Z'. No other character lower-cases into one of the recognised key names, so which heading a key gives is unchanged.
- Entities.Move: the claim that a vertical move leaves x unchanged holds only for x already in [-1, 28], because the tunnel check also applies to a vertical move.
- GameRules.UpdateGhostModes: requires the cursor to be on an entry when frightened time ends, because `updateGhostModes` in game.js (line 77) would throw there on a cursor past the end. `GameRules.UpdateGhostModesKeepsCursor` shows the cursor never gets past the end.
- GameRules.Update: requires the same of a PLAYING update in which frightened time ends. The game invariant includes the cursor being on an entry, `NewGame` establishes it and every update keeps it.
- Dot collection and the level-complete check still run in the same update after Pac-Man dies, because `update` in game.js (lines 64-69) does not stop after `checkCollisions`. `GameRules.Update` keeps this order. The cases where it matters are listed under "## Findings".

## Findings

| source | as written | input that shows it | evidently intended | confidence | as-written member | corrected member |
|---|---|---|---|---|---|---|
| sources/src/game.js:64-69 | after `checkCollisions`, `update` always runs `checkDotCollection` and, at zero dots, `levelComplete`, even when the collisions just called `gameOver` | an unpowered Pac-Man on his last life, on the last dot, touched by a live ghost: `gameOver` sets GAME OVER, then `levelComplete` calls `resetPositions`, which sets READY with 0 lives; the next death gives -1 lives, and `lives === 0` (line 154) never ends the game again | once the game is over, nothing else happens in that update, so zero lives only occur in GAME OVER | high, not executed | GameRules.LastLifeAndLastDot | GameRules.ResolveIntendedEndsGame |
| sources/src/game.js:64-69 | the same order collects the pellet under Pac-Man after `gameOver` | an unpowered Pac-Man on his last life, touched by a live ghost, on a dot with more dots left: the game ends and the dot still scores 10; on a power pellet it scores 50, powers Pac-Man up and starts 360 updates of frightened time, all in GAME OVER | an update that ends the game scores nothing and changes neither Pac-Man nor the maze | high, not executed | GameRules.GameOverStillCollects | GameRules.ResolveIntendedEndsGame |

`GameRules.Update` models `update` as written and ends with `GameRules.Resolve`. `GameRules.ResolveIntended` is the corrected end of an update: it stops once the collisions have ended the game, and otherwise agrees with `Resolve`.

=== FILE: constants.dfy ===
/** The shared enumerations, point values, speeds and the scatter/chase
    timetable of the game (src/constants.js). */
module Constants {

  /** Maze size in tiles. */
  const MazeWidth: int := 28
  const MazeHeight: int := 36

  /** Logical updates per second; every duration below is counted in updates. */
  const Fps: nat := 60

  /** A heading. Screen y grows downwards, so Up is (0, -1). */
  datatype Direction = Up | Down | Left | Right | None

  /** The x component of a heading's vector. */
  function DX(d: Direction): int {
    match d
    case Left => -1
    case Right => 1
    case _ => 0
  }

  /** The y component of a heading's vector. */
  function DY(d: Direction): int {
    match d
    case Up => -1
    case Down => 1
    case _ => 0
  }

  /** Each real heading is a unit step along exactly one axis; None is the
      zero vector; and no two headings share a vector. */
  lemma DirectionVectors(d: Direction, d': Direction)
    ensures d == None <==> DX(d) == 0 && DY(d) == 0
    ensures d != None ==> (DX(d) == 0) != (DY(d) == 0)
    ensures d != None ==> DX(d) * DX(d) + DY(d) * DY(d) == 1
    ensures DX(d) == DX(d') && DY(d) == DY(d') ==> d == d'
  {
  }

  /** The behaviour mode of one ghost. */
  datatype GhostMode = Scatter | Chase | Frightened | Eaten

  /** The state of a whole game session. */
  datatype GameMode = Ready | Playing | Paused | Dying | GameOver

  /** What a maze tile holds (codes 0..5 of `TILE_TYPE` in constants.js, in this order). */
  datatype TileType = Wall | Empty | Dot | PowerPellet | GhostGate | Tunnel

  /** Points awarded for eating things. */
  const DotPoints: nat := 10
  const PowerPelletPoints: nat := 50
  const ExtraLifePoints: nat := 10000

  /** Points for the first, second, third and fourth ghost eaten on one pellet. */
  const GhostPointTable: seq<nat> := [200, 400, 800, 1600]

  /** Each ghost eaten on the same pellet is worth twice the previous one. */
  lemma GhostPointsDouble()
    ensures |GhostPointTable| == 4 && GhostPointTable[0] == 200
    ensures forall i :: 0 < i < |GhostPointTable| ==> GhostPointTable[i] == 2 * GhostPointTable[i - 1]
  {
  }

  /** Movement speeds, in tiles per ten updates. */
  const PacmanNormalSpeed: real := 0.8
  const PacmanPoweredSpeed: real := 0.9
  const GhostNormalSpeed: real := 0.75
  const GhostFrightenedSpeed: real := 0.5
  const GhostTunnelSpeed: real := 0.4
  const GhostEatenSpeed: real := 1.5

  /** How long one entry of the timetable lasts. */
  datatype Duration = Ticks(n: nat) | Unbounded

  /** One entry of the scatter/chase timetable. */
  datatype Phase = Phase(mode: GhostMode, duration: Duration)

  /** The scatter/chase timetable that drives every ghost outside frightened time. */
  const Schedule: seq<Phase> := [
    Phase(Scatter, Ticks(7 * Fps)),
    Phase(Chase, Ticks(20 * Fps)),
    Phase(Scatter, Ticks(7 * Fps)),
    Phase(Chase, Ticks(20 * Fps)),
    Phase(Scatter, Ticks(5 * Fps)),
    Phase(Chase, Ticks(20 * Fps)),
    Phase(Scatter, Ticks(5 * Fps)),
    Phase(Chase, Unbounded)
  ]

  /** Length of frightened time after a power pellet, in updates. */
  const FrightenedDuration: nat := 6 * Fps

  /** The timetable has eight entries, starts in scatter and alternates
      scatter and chase. */
  lemma ScheduleAlternates()
    ensures |Schedule| == 8
    ensures Schedule[0].mode == Scatter
    ensures forall i :: 0 <= i < |Schedule| ==>
              Schedule[i].mode == (if i % 2 == 0 then Scatter else Chase)
  {
  }

  /** Only the last entry is unbounded; the others last 420, 1200, 420,
      1200, 300, 1200 and 300 updates. */
  lemma ScheduleDurations()
    ensures forall i :: 0 <= i < |Schedule| ==> (Schedule[i].duration.Unbounded? <==> i == |Schedule| - 1)
    ensures [Schedule[0].duration, Schedule[1].duration, Schedule[2].duration, Schedule[3].duration,
             Schedule[4].duration, Schedule[5].duration, Schedule[6].duration]
         == [Ticks(420), Ticks(1200), Ticks(420), Ticks(1200), Ticks(300), Ticks(1200), Ticks(300)]
  {
  }

  /** Frightened time lasts six seconds. */
  lemma FrightenedLasts360()
    ensures FrightenedDuration == 360
  {
  }
}

=== FILE: entities.dfy ===
/** The movement rule shared by Pac-Man and every ghost (src/entity.js).
    Positions are exact reals: this models the arithmetic the code means,
    not IEEE doubles, so it does not say on which update a moving entity
    enters the tile-centre window. */
module Entities {
  import opened Constants
  import opened Grid

  /** A moving body: continuous position, the tile it stands on, speed,
      current heading and queued heading. */
  datatype Entity = Entity(x: real, y: real, tileX: int, tileY: int, speed: real,
                           direction: Direction, nextDirection: Direction)

  /** The stored tile is the floor of the continuous position. */
  predicate TileConsistent(e: Entity) {
    e.tileX == e.x.Floor && e.tileY == e.y.Floor
  }

  /** The tile an entity stands on. */
  function TileOf(e: Entity): Tile {
    Tile(e.tileX, e.tileY)
  }

  /** A fresh entity stands on the floor of its position and has no heading. */
  function NewEntity(x: real, y: real, speed: real): (e: Entity)
    ensures TileConsistent(e)
    ensures e.x == x && e.y == y && e.speed == speed
    ensures e.direction == None && e.nextDirection == None
  {
    Entity(x, y, x.Floor, y.Floor, speed, None, None)
  }

  /** Recompute the stored tile from the position; nothing else changes. */
  function UpdateTilePosition(e: Entity): (r: Entity)
    ensures TileConsistent(r)
    ensures r == e.(tileX := r.tileX, tileY := r.tileY)
    ensures TileConsistent(e) ==> r == e
  {
    e.(tileX := e.x.Floor, tileY := e.y.Floor)
  }

  function AbsReal(v: real): real {
    if v < 0.0 then -v else v
  }

  /** How far into its tile a coordinate lies. */
  function Offset(v: real): (r: real)
    ensures 0.0 <= r < 1.0
  {
    v - v.Floor as real
  }

  /** Both offsets lie within 0.1 of the middle of the tile. */
  predicate IsAtTileCenter(e: Entity) {
    AbsReal(Offset(e.x) - 0.5) < 0.1 && AbsReal(Offset(e.y) - 0.5) < 0.1
  }

  /** The centre window is the open band 0.4 .. 0.6 of the tile on each axis. */
  lemma CenterWindow(e: Entity)
    ensures IsAtTileCenter(e) <==>
              e.x.Floor as real + 0.4 < e.x < e.x.Floor as real + 0.6 &&
              e.y.Floor as real + 0.4 < e.y < e.y.Floor as real + 0.6
  {
  }

  /** Move to the exact middle of the current tile. */
  function SnapToTileCenter(e: Entity): (r: Entity)
    ensures IsAtTileCenter(r) && TileConsistent(r)
    ensures r.x.Floor == e.x.Floor && r.y.Floor == e.y.Floor
    ensures TileConsistent(e) ==> TileOf(r) == TileOf(e)
    ensures r.speed == e.speed && r.direction == e.direction && r.nextDirection == e.nextDirection
  {
    UpdateTilePosition(e.(x := e.x.Floor as real + 0.5, y := e.y.Floor as real + 0.5))
  }

  /** Snapping twice is snapping once. */
  lemma SnapIdempotent(e: Entity)
    ensures SnapToTileCenter(SnapToTileCenter(e)) == SnapToTileCenter(e)
  {
  }

  /** The tile one whole step along `d` from the continuous position is not a wall. */
  predicate CanMoveInDirection(e: Entity, m: Maze, d: Direction) {
    !IsWall(m, (e.x + DX(d) as real).Floor, (e.y + DY(d) as real).Floor)
  }

  /** For a consistent entity the test asks about the neighbouring tile; for
      None it asks about the entity's own tile. */
  lemma CanMoveIsNeighbourTest(e: Entity, m: Maze, d: Direction)
    requires TileConsistent(e)
    ensures CanMoveInDirection(e, m, d) <==> !IsWall(m, e.tileX + DX(d), e.tileY + DY(d))
    ensures CanMoveInDirection(e, m, None) <==> !IsWall(m, e.tileX, e.tileY)
  {
  }

  /** Tunnel wrap: leaving past x = -1 re-enters at 27.5, past x = 28 at 0.5. */
  function Wrap(x: real): (r: real)
    ensures -1.0 <= r <= 28.0
    ensures -1.0 <= x <= 28.0 ==> r == x
    ensures x < -1.0 ==> r == 27.5
    ensures x > 28.0 ==> r == 0.5
  {
    var a := if x < -1.0 then 27.5 else x;
    if a > 28.0 then 0.5 else a
  }

  /** Where one update would take the entity, before the wall check and wrap. */
  function StepX(e: Entity): real {
    e.x + DX(e.direction) as real * e.speed * 0.1
  }

  function StepY(e: Entity): real {
    e.y + DY(e.direction) as real * e.speed * 0.1
  }

  /** The tile half a tile ahead of the candidate position is a wall. */
  predicate Blocked(e: Entity, m: Maze) {
    IsWall(m, (StepX(e) + DX(e.direction) as real * 0.5).Floor,
              (StepY(e) + DY(e.direction) as real * 0.5).Floor)
  }

  /** Advance one update along the current heading, unless the tile half a
      tile ahead of the candidate position is a wall. */
  function Move(e: Entity, m: Maze): (r: Entity)
    ensures e.direction == None ==> r == e
    ensures Blocked(e, m) ==> r == e
    ensures e.direction != None && !Blocked(e, m) ==>
              TileConsistent(r) && r.x == Wrap(StepX(e)) && r.y == StepY(e) && -1.0 <= r.x <= 28.0
    ensures TileConsistent(e) ==> TileConsistent(r)
    ensures DX(e.direction) == 0 && -1.0 <= e.x <= 28.0 ==> r.x == e.x
    ensures DY(e.direction) == 0 ==> r.y == e.y
    ensures r.speed == e.speed && r.direction == e.direction && r.nextDirection == e.nextDirection
  {
    if e.direction == None then e
    else if Blocked(e, m) then e
    else
      var moved := e.(x := Wrap(StepX(e)), y := StepY(e));
      UpdateTilePosition(moved)
  }

  /** Squared distance from the entity's tile (not its position) to a tile. */
  function DistanceSqTo(e: Entity, target: Tile): (r: nat)
    ensures r == 0 <==> TileOf(e) == target
  {
    SqDist(TileOf(e), target)
  }

  /** Two entities on the same tile are equally far from any tile, wherever
      they are inside it. */
  lemma DistanceUsesTile(e: Entity, e': Entity, target: Tile)
    requires e.tileX == e'.tileX && e.tileY == e'.tileY
    ensures DistanceSqTo(e, target) == DistanceSqTo(e', target)
  {
  }
}

=== FILE: gamerules.dfy ===
/** The round orchestrator (src/game.js): the per-update sequence, the
    scatter/chase timetable cursor with the frightened override, power
    pellets, collisions with their escalating ghost score, pellet pickup,
    death, level completion and the high score. Drawing, the HUD and the
    stored high score are outside the model: the stored value is a
    parameter of `NewGame` and the HUD refresh and the store write do
    nothing here. */
module GameRules {
  import opened Constants
  import opened Wrappers
  import opened Grid
  import opened Entities
  import opened Input
  import opened Player
  import opened Ghosts
  import opened Personalities
  import opened Navigation

  /** Where Pac-Man starts and restarts. */
  const PacmanStartX: real := 13.5
  const PacmanStartY: real := 23.5

  const StartingLives: int := 3

  /** High score used when none is stored. */
  const DefaultHighScore: nat := 10000

  /** The whole game. `layout` is the maze a level starts from, which the
      maze's own reset restores. */
  datatype Game = Game(pacman: PacMan, ghosts: seq<Ghost>, maze: Maze, layout: Maze,
                       input: InputHandler, score: nat, highScore: nat, lives: int, level: nat,
                       gameMode: GameMode, tick: nat, modeTick: nat, currentPattern: nat,
                       frightenedTimer: nat, ghostsEaten: nat)

  /** What every reachable game satisfies: the timetable cursor is on an
      entry, the high score is at least the score, Pac-Man is valid and every
      ghost's tile is the floor of its position. */
  predicate GameInvariant(g: Game) {
    && g.currentPattern < |Schedule|
    && g.score <= g.highScore
    && Valid(g.pacman)
    && forall k :: 0 <= k < |g.ghosts| ==> TileConsistent(g.ghosts[k].body)
  }

  /** A new game: Pac-Man at the start, Blinky, Pinky, Inky and Clyde in
      that order, three lives, level 1, waiting to start. */
  function NewGame(layout: Maze, storedHighScore: Option<nat>): (g: Game)
    ensures GameInvariant(g)
    ensures g.ghosts == [NewBlinky(), NewPinky(), NewInky(), NewClyde()]
    ensures g.score == 0 && g.lives == 3 && g.level == 1 && g.gameMode == Ready
    ensures g.highScore == storedHighScore.GetOr(DefaultHighScore)
    ensures g.tick == 0 && g.modeTick == 0 && g.currentPattern == 0
    ensures g.frightenedTimer == 0 && g.ghostsEaten == 0 && g.maze == layout
    ensures g.input.bufferedInput == None
  {
    Game(NewPacMan(PacmanStartX, PacmanStartY), [NewBlinky(), NewPinky(), NewInky(), NewClyde()],
         layout, layout, NewInputHandler(), 0, storedHighScore.GetOr(DefaultHighScore),
         StartingLives, 1, Ready, 0, 0, 0, 0, 0)
  }

  /** A key press reaches the input buffer. */
  function PressKey(g: Game, key: string): (r: Game)
    ensures r == g.(input := KeyDown(g.input, key))
    ensures KeyToDirection(key).Nothing? ==> r == g
  {
    g.(input := KeyDown(g.input, key))
  }

  /** Add points; the high score follows the score upwards and never falls. */
  function AddScore(g: Game, points: nat): (r: Game)
    ensures r.score == g.score + points
    ensures r.highScore >= r.score && r.highScore >= g.highScore
    ensures r.highScore == (if g.score + points > g.highScore then g.score + points else g.highScore)
    ensures r == g.(score := r.score, highScore := r.highScore)
  {
    var s := g.score + points;
    g.(score := s, highScore := if s > g.highScore then s else g.highScore)
  }

  /** Tell every ghost the same mode. */
  function SetAllModes(gs: seq<Ghost>, m: GhostMode): (r: seq<Ghost>)
    ensures |r| == |gs|
    ensures forall k :: 0 <= k < |gs| ==> r[k] == SetMode(gs[k], m)
    ensures forall k :: 0 <= k < |gs| ==> r[k].mode == m
    ensures forall k :: 0 <= k < |gs| ==> TileOf(r[k].body) == TileOf(gs[k].body)
                                          && r[k].body.x == gs[k].body.x && r[k].body.y == gs[k].body.y
  {
    seq(|gs|, k requires 0 <= k < |gs| => SetMode(gs[k], m))
  }

  /** Advance the mode controller by one update. While frightened time runs
      it only counts down, and when it ends every ghost gets the mode of the
      current timetable entry. Otherwise, once the entry's duration has
      passed, the cursor moves on and every ghost gets the new entry's mode;
      a cursor past the end is left alone. Only the end of frightened time
      reads the current entry unguarded (`updateGhostModes` in game.js would
      throw there on a cursor past the end), hence the precondition;
      `UpdateGhostModesKeepsCursor` shows such a cursor is never reached. */
  function UpdateGhostModes(g: Game): (r: Game)
    requires g.frightenedTimer == 1 ==> g.currentPattern < |Schedule|
    ensures g.currentPattern < |Schedule| ==> r.currentPattern < |Schedule|
    ensures g.frightenedTimer > 1 ==> r == g.(frightenedTimer := g.frightenedTimer - 1)
    ensures g.frightenedTimer == 1 ==>
              r == g.(frightenedTimer := 0, ghosts := SetAllModes(g.ghosts, Schedule[g.currentPattern].mode))
    ensures g.frightenedTimer == 0 && g.currentPattern < |Schedule| && Expired(g) ==>
              && r.modeTick == 0 && r.currentPattern == g.currentPattern + 1
              && r == g.(modeTick := 0, currentPattern := r.currentPattern,
                         ghosts := SetAllModes(g.ghosts, Schedule[r.currentPattern].mode))
    ensures g.frightenedTimer == 0 && (g.currentPattern >= |Schedule| || !Expired(g)) ==> r == g
  {
    if g.frightenedTimer > 0 then
      var ft := g.frightenedTimer - 1;
      if ft == 0 then
        g.(frightenedTimer := 0, ghosts := SetAllModes(g.ghosts, Schedule[g.currentPattern].mode))
      else
        g.(frightenedTimer := ft)
    else if g.currentPattern < |Schedule| then
      var phase := Schedule[g.currentPattern];
      if phase.duration.Ticks? && g.modeTick >= phase.duration.n then
        ScheduleDurations();
        var next := g.currentPattern + 1;
        var g' := g.(modeTick := 0, currentPattern := next);
        if next < |Schedule| then g'.(ghosts := SetAllModes(g'.ghosts, Schedule[next].mode))
        else g'
      else g
    else g
  }

  /** The current timetable entry is finite and its time is up. */
  predicate Expired(g: Game)
    requires g.currentPattern < |Schedule|
  {
    Schedule[g.currentPattern].duration.Ticks? && g.modeTick >= Schedule[g.currentPattern].duration.n
  }

  /** The last entry is never left, and frightened time does not move the
      cursor or reset the tick counter. */
  lemma UpdateGhostModesKeepsCursor(g: Game)
    requires g.currentPattern < |Schedule|
    ensures g.currentPattern == |Schedule| - 1 ==> UpdateGhostModes(g).currentPattern == g.currentPattern
    ensures g.frightenedTimer > 0 ==>
              UpdateGhostModes(g).currentPattern == g.currentPattern && UpdateGhostModes(g).modeTick == g.modeTick
  {
    ScheduleDurations();
  }

  /** When frightened time ends, every ghost returns to the mode of the
      timetable entry the cursor is on, which need not be scatter. */
  lemma FrightenedEndsInScheduleMode(g: Game)
    requires g.currentPattern < |Schedule| && g.frightenedTimer == 1
    ensures forall k :: 0 <= k < |g.ghosts| ==>
              UpdateGhostModes(g).ghosts[k].mode == Schedule[g.currentPattern].mode
    ensures g.currentPattern % 2 == 1 ==>
              forall k :: 0 <= k < |g.ghosts| ==> UpdateGhostModes(g).ghosts[k].mode == Chase
  {
    ScheduleAlternates();
  }

  /** 2 to the power `n`. */
  function Pow2(n: nat): (r: nat)
    ensures r >= 1
  {
    if n == 0 then 1 else 2 * Pow2(n - 1)
  }

  /** Points for the `n`th ghost eaten on one pellet: the table entry at
      min(n - 1, 3). */
  function GhostEatPoints(n: nat): (r: nat)
    requires n >= 1
    ensures r == 200 * Pow2((if n < 4 then n else 4) - 1)
  {
    var k := if n - 1 < 3 then n - 1 else 3;
    assert Pow2(3) == 8;
    GhostPointTable[k]
  }

  /** On one pellet the ghosts are worth 200, 400, 800, 1600, and 1600 for
      every ghost after the fourth. */
  lemma GhostEatPointsSequence(n: nat)
    requires n >= 4
    ensures GhostEatPoints(1) == 200 && GhostEatPoints(2) == 400
    ensures GhostEatPoints(3) == 800 && GhostEatPoints(4) == 1600
    ensures GhostEatPoints(n) == 1600
    ensures forall k :: 1 <= k < 4 ==> GhostEatPoints(k + 1) == 2 * GhostEatPoints(k)
  {
    assert Pow2(1) == 2 && Pow2(2) == 4 && Pow2(3) == 8;
  }

  /** Power pellet: Pac-Man is powered for the frightened duration, the
      frightened timer starts, the eaten count restarts and every ghost is
      told FRIGHTENED (reversing those that were in another mode). */
  function ActivatePowerMode(g: Game): (r: Game)
    ensures r.pacman == SetPowered(g.pacman, FrightenedDuration)
    ensures r.frightenedTimer == FrightenedDuration && r.ghostsEaten == 0
    ensures r.ghosts == SetAllModes(g.ghosts, Frightened)
    ensures forall k :: 0 <= k < |r.ghosts| ==> r.ghosts[k].mode == Frightened
    ensures r == g.(pacman := r.pacman, frightenedTimer := r.frightenedTimer,
                    ghostsEaten := r.ghostsEaten, ghosts := r.ghosts)
    ensures GameInvariant(g) ==> GameInvariant(r)
  {
    g.(pacman := SetPowered(g.pacman, FrightenedDuration), frightenedTimer := FrightenedDuration,
       ghostsEaten := 0, ghosts := SetAllModes(g.ghosts, Frightened))
  }

  /** Eat ghost `i`: count it, award its points, send it home. */
  function EatGhost(g: Game, i: nat): (r: Game)
    requires i < |g.ghosts|
    ensures r.ghostsEaten == g.ghostsEaten + 1
    ensures r.score == g.score + GhostEatPoints(g.ghostsEaten + 1)
    ensures r.ghosts == g.ghosts[i := Ghosts.Reset(g.ghosts[i])]
    ensures r.highScore == AddScore(g, GhostEatPoints(g.ghostsEaten + 1)).highScore
    ensures r == g.(ghostsEaten := r.ghostsEaten, score := r.score, highScore := r.highScore,
                    ghosts := r.ghosts)
    ensures GameInvariant(g) ==> GameInvariant(r)
  {
    var n := g.ghostsEaten + 1;
    var g' := AddScore(g.(ghostsEaten := n), GhostEatPoints(n));
    g'.(ghosts := g'.ghosts[i := Ghosts.Reset(g'.ghosts[i])])
  }

  /** Send Pac-Man and every ghost home and wait for the next start. */
  function ResetPositions(g: Game): (r: Game)
    ensures r.pacman == Player.Reset(g.pacman, PacmanStartX, PacmanStartY)
    ensures |r.ghosts| == |g.ghosts| && forall k :: 0 <= k < |g.ghosts| ==> r.ghosts[k] == Ghosts.Reset(g.ghosts[k])
    ensures r.gameMode == Ready
    ensures r == g.(pacman := r.pacman, ghosts := r.ghosts, gameMode := Ready)
    ensures GameInvariant(g) ==> GameInvariant(r)
  {
    g.(pacman := Player.Reset(g.pacman, PacmanStartX, PacmanStartY),
       ghosts := seq(|g.ghosts|, k requires 0 <= k < |g.ghosts| => Ghosts.Reset(g.ghosts[k])),
       gameMode := Ready)
  }

  /** The game ends; the high score is brought up to the score. */
  function EndGame(g: Game): (r: Game)
    ensures r.gameMode == GameOver
    ensures r.highScore >= r.score && r.highScore >= g.highScore
    ensures g.score <= g.highScore ==> r == g.(gameMode := GameOver)
    ensures r == g.(gameMode := GameOver, highScore := r.highScore)
  {
    g.(gameMode := GameOver, highScore := if g.score > g.highScore then g.score else g.highScore)
  }

  /** Pac-Man loses a life: at zero the game is over, otherwise everybody
      goes home and the game waits for the next start. */
  function PacmanDies(g: Game): (r: Game)
    ensures r.lives == g.lives - 1
    ensures g.lives - 1 == 0 ==> r.gameMode == GameOver && r.pacman == g.pacman && r.ghosts == g.ghosts
    ensures g.lives - 1 == 0 ==> r == EndGame(g.(lives := 0))
    ensures g.lives - 1 != 0 ==> r.gameMode == Ready && r == ResetPositions(g.(lives := g.lives - 1))
    ensures r.score == g.score && r.highScore >= g.highScore && r.level == g.level
    ensures r.tick == g.tick && r.modeTick == g.modeTick && r.currentPattern == g.currentPattern
    ensures r.maze == g.maze && r.frightenedTimer == g.frightenedTimer && r.ghostsEaten == g.ghostsEaten
    ensures |r.ghosts| == |g.ghosts|
    ensures GameInvariant(g) ==> GameInvariant(r)
  {
    var g' := g.(lives := g.lives - 1);
    if g'.lives == 0 then EndGame(g') else ResetPositions(g')
  }

  /** Next level: count it, restore the layout, send everybody home and
      restart the timetable. Score, lives and frightened time are kept. */
  function LevelComplete(g: Game): (r: Game)
    ensures r.level == g.level + 1 && r.maze == g.layout
    ensures r.modeTick == 0 && r.currentPattern == 0 && r.gameMode == Ready
    ensures r.score == g.score && r.highScore == g.highScore && r.lives == g.lives
    ensures r.frightenedTimer == g.frightenedTimer && r.ghostsEaten == g.ghostsEaten
    ensures r.pacman == Player.Reset(g.pacman, PacmanStartX, PacmanStartY)
    ensures |r.ghosts| == |g.ghosts|
    ensures forall k :: 0 <= k < |g.ghosts| ==> r.ghosts[k] == Ghosts.Reset(g.ghosts[k])
    ensures GameInvariant(g) ==> GameInvariant(r)
  {
    var g' := ResetPositions(g.(level := g.level + 1, maze := g.layout));
    g'.(modeTick := 0, currentPattern := 0)
  }

  /** Pac-Man and a ghost are closer than 0.7 tiles (compared squared). */
  predicate Collides(p: PacMan, gh: Ghost) {
    var dx := p.body.x - gh.body.x;
    var dy := p.body.y - gh.body.y;
    dx * dx + dy * dy < 0.49
  }

  /** On a shared row or column, comparing the squares is the same as the
      distance test: Pac-Man and a ghost touch exactly when they are less
      than 0.7 tiles apart. */
  lemma CollisionRadius(p: PacMan, gh: Ghost)
    ensures gh.body.y == p.body.y ==> (Collides(p, gh) <==> -0.7 < p.body.x - gh.body.x < 0.7)
    ensures gh.body.x == p.body.x ==> (Collides(p, gh) <==> -0.7 < p.body.y - gh.body.y < 0.7)
  {
    var dx := p.body.x - gh.body.x;
    var dy := p.body.y - gh.body.y;
    assert dx * dx - 0.49 == (dx - 0.7) * (dx + 0.7);
    assert dy * dy - 0.49 == (dy - 0.7) * (dy + 0.7);
  }

  /** Ghost `k` touches Pac-Man and is not EATEN. */
  predicate Threat(p: PacMan, gs: seq<Ghost>, k: nat)
    requires k < |gs|
  {
    Collides(p, gs[k]) && gs[k].mode != Eaten
  }

  /** How many ghosts from index `i` on touch Pac-Man and are not EATEN. */
  function ThreatsFrom(p: PacMan, gs: seq<Ghost>, i: nat): nat
    requires i <= |gs|
    decreases |gs| - i
  {
    if i == |gs| then 0 else (if Threat(p, gs, i) then 1 else 0) + ThreatsFrom(p, gs, i + 1)
  }

  /** The points a powered scan from index `i` awards when `eaten` ghosts
      were already eaten on this pellet: each threatening ghost, in list
      order, scores the next value of the escalating table. */
  function EatPointsFrom(p: PacMan, gs: seq<Ghost>, i: nat, eaten: nat): nat
    requires i <= |gs|
    decreases |gs| - i
  {
    if i == |gs| then 0
    else if Threat(p, gs, i) then GhostEatPoints(eaten + 1) + EatPointsFrom(p, gs, i + 1, eaten + 1)
    else EatPointsFrom(p, gs, i + 1, eaten)
  }

  /** Changing the ghosts before index `i` changes neither the count nor the
      points from `i`. */
  lemma {:induction false} ThreatsFromFrame(p: PacMan, gs: seq<Ghost>, gs': seq<Ghost>, i: nat)
    requires i <= |gs| == |gs'|
    requires forall k :: i <= k < |gs| ==> gs[k] == gs'[k]
    ensures ThreatsFrom(p, gs, i) == ThreatsFrom(p, gs', i)
    ensures forall e :: EatPointsFrom(p, gs, i, e) == EatPointsFrom(p, gs', i, e)
    decreases |gs| - i
  {
    if i < |gs| {
      ThreatsFromFrame(p, gs, gs', i + 1);
    }
  }

  /** Scan the ghosts in list order from index `i`. A powered Pac-Man eats
      every touching ghost that is not EATEN and the scan goes on; an
      unpowered Pac-Man dies on the first such ghost and the scan stops. */
  function CheckCollisionsFrom(g: Game, i: nat): (r: Game)
    requires i <= |g.ghosts|
    ensures |r.ghosts| == |g.ghosts|
    ensures r.lives == g.lives || r.lives == g.lives - 1
    ensures r.score >= g.score && r.highScore >= g.highScore && r.level == g.level
    ensures r.tick == g.tick && r.modeTick == g.modeTick && r.currentPattern == g.currentPattern
    ensures r.maze == g.maze && r.frightenedTimer == g.frightenedTimer
    ensures GameInvariant(g) ==> GameInvariant(r)
    decreases |g.ghosts| - i
  {
    if i == |g.ghosts| then g
    else if Collides(g.pacman, g.ghosts[i]) then
      if g.pacman.powered && g.ghosts[i].mode != Eaten then CheckCollisionsFrom(EatGhost(g, i), i + 1)
      else if g.ghosts[i].mode != Eaten then PacmanDies(g)
      else CheckCollisionsFrom(g, i + 1)
    else CheckCollisionsFrom(g, i + 1)
  }

  /** With no threatening ghost the scan changes nothing. */
  lemma {:induction false} NoThreatNoChange(g: Game, i: nat)
    requires i <= |g.ghosts|
    requires ThreatsFrom(g.pacman, g.ghosts, i) == 0
    ensures CheckCollisionsFrom(g, i) == g
    decreases |g.ghosts| - i
  {
    if i < |g.ghosts| {
      NoThreatNoChange(g, i + 1);
    }
  }

  /** Unpowered, Pac-Man dies exactly once when some ghost threatens him,
      however many do: the scan's result is one `PacmanDies` of the game as
      it was, so one life is lost and the score stays. */
  lemma {:induction false} UnpoweredDiesOnce(g: Game, i: nat)
    requires i <= |g.ghosts| && !g.pacman.powered
    ensures ThreatsFrom(g.pacman, g.ghosts, i) > 0 ==> CheckCollisionsFrom(g, i) == PacmanDies(g)
    ensures ThreatsFrom(g.pacman, g.ghosts, i) > 0 ==>
              CheckCollisionsFrom(g, i).lives == g.lives - 1 && CheckCollisionsFrom(g, i).score == g.score
    ensures ThreatsFrom(g.pacman, g.ghosts, i) == 0 ==> CheckCollisionsFrom(g, i) == g
    decreases |g.ghosts| - i
  {
    if i < |g.ghosts| {
      UnpoweredDiesOnce(g, i + 1);
    }
    if ThreatsFrom(g.pacman, g.ghosts, i) == 0 {
      NoThreatNoChange(g, i);
    }
  }

  /** Powered, the high score after the scan is the larger of the old high
      score and the final score, once any ghost was eaten; without a ghost
      eaten it stays. */
  lemma {:induction false} PoweredHighScore(g: Game, i: nat)
    requires i <= |g.ghosts| && g.pacman.powered
    ensures var r := CheckCollisionsFrom(g, i);
            r.highScore == (if ThreatsFrom(g.pacman, g.ghosts, i) == 0 then g.highScore
                            else if r.score > g.highScore then r.score else g.highScore)
    decreases |g.ghosts| - i
  {
    if i < |g.ghosts| {
      if Collides(g.pacman, g.ghosts[i]) && g.ghosts[i].mode != Eaten {
        var g' := EatGhost(g, i);
        var r := CheckCollisionsFrom(g', i + 1);
        assert CheckCollisionsFrom(g, i) == r;
        ThreatsFromFrame(g.pacman, g.ghosts, g'.ghosts, i + 1);
        assert ThreatsFrom(g.pacman, g.ghosts, i) > 0;
        PoweredHighScore(g', i + 1);
        if ThreatsFrom(g'.pacman, g'.ghosts, i + 1) == 0 {
          NoThreatNoChange(g', i + 1);
        } else {
          assert r.score >= g'.score > g.score;
        }
      } else {
        assert CheckCollisionsFrom(g, i) == CheckCollisionsFrom(g, i + 1);
        PoweredHighScore(g, i + 1);
      }
    }
  }

  /** Powered, Pac-Man never dies. Exactly the threatening ghosts from `i`
      on are sent home, each scoring the next escalating value; every other
      ghost and everything but the score, high score and eaten count stay. */
  lemma {:induction false} PoweredEatsAll(g: Game, i: nat)
    requires i <= |g.ghosts| && g.pacman.powered
    ensures CheckCollisionsFrom(g, i).lives == g.lives
    ensures CheckCollisionsFrom(g, i).ghostsEaten == g.ghostsEaten + ThreatsFrom(g.pacman, g.ghosts, i)
    ensures CheckCollisionsFrom(g, i).pacman == g.pacman
    ensures CheckCollisionsFrom(g, i).score == g.score + EatPointsFrom(g.pacman, g.ghosts, i, g.ghostsEaten)
    ensures forall k :: 0 <= k < |g.ghosts| ==>
              CheckCollisionsFrom(g, i).ghosts[k] ==
                (if i <= k && Threat(g.pacman, g.ghosts, k) then Ghosts.Reset(g.ghosts[k]) else g.ghosts[k])
    ensures var r := CheckCollisionsFrom(g, i);
            r.highScore == (if ThreatsFrom(g.pacman, g.ghosts, i) == 0 then g.highScore
                            else if r.score > g.highScore then r.score else g.highScore)
    ensures var r := CheckCollisionsFrom(g, i);
            r == g.(ghosts := r.ghosts, score := r.score, highScore := r.highScore, ghostsEaten := r.ghostsEaten)
    decreases |g.ghosts| - i
  {
    PoweredHighScore(g, i);
    if i < |g.ghosts| {
      if Collides(g.pacman, g.ghosts[i]) && g.ghosts[i].mode != Eaten {
        var g' := EatGhost(g, i);
        ThreatsFromFrame(g.pacman, g.ghosts, g'.ghosts, i + 1);
        PoweredEatsAll(g', i + 1);
        forall k | i + 1 <= k < |g.ghosts|
          ensures Threat(g'.pacman, g'.ghosts, k) == Threat(g.pacman, g.ghosts, k)
        {
          assert g'.ghosts[k] == g.ghosts[k];
        }
      } else {
        PoweredEatsAll(g, i + 1);
      }
    }
  }

  /** All four ghosts caught on one fresh pellet score 200 + 400 + 800 +
      1600 = 3000. */
  lemma FourGhostsScore3000(p: PacMan, gs: seq<Ghost>)
    requires |gs| == 4 && forall k :: 0 <= k < 4 ==> Threat(p, gs, k)
    ensures ThreatsFrom(p, gs, 0) == 4
    ensures EatPointsFrom(p, gs, 0, 0) == 3000
  {
    GhostEatPointsSequence(4);
    assert Threat(p, gs, 0) && Threat(p, gs, 1) && Threat(p, gs, 2) && Threat(p, gs, 3);
    assert ThreatsFrom(p, gs, 3) == 1 && EatPointsFrom(p, gs, 3, 3) == 1600;
    assert ThreatsFrom(p, gs, 2) == 2 && EatPointsFrom(p, gs, 2, 2) == 2400;
    assert ThreatsFrom(p, gs, 1) == 3 && EatPointsFrom(p, gs, 1, 1) == 2800;
  }

  /** The whole scan: an unpowered Pac-Man touched by a live ghost dies
      once; a powered one eats exactly the touching live ghosts, scoring the
      escalating values; without contact nothing changes. */
  function CheckCollisions(g: Game): (r: Game)
    ensures |r.ghosts| == |g.ghosts|
    ensures GameInvariant(g) ==> GameInvariant(r)
    ensures r.lives == g.lives || r.lives == g.lives - 1
    ensures !g.pacman.powered && ThreatsFrom(g.pacman, g.ghosts, 0) > 0 ==> r == PacmanDies(g)
    ensures ThreatsFrom(g.pacman, g.ghosts, 0) == 0 ==> r == g
    ensures g.pacman.powered ==>
              && r.lives == g.lives && r.pacman == g.pacman
              && r.ghostsEaten == g.ghostsEaten + ThreatsFrom(g.pacman, g.ghosts, 0)
              && r.score == g.score + EatPointsFrom(g.pacman, g.ghosts, 0, g.ghostsEaten)
              && r.highScore == (if ThreatsFrom(g.pacman, g.ghosts, 0) == 0 then g.highScore
                                 else if r.score > g.highScore then r.score else g.highScore)
              && r == g.(ghosts := r.ghosts, score := r.score, highScore := r.highScore, ghostsEaten := r.ghostsEaten)
              && (forall k :: 0 <= k < |g.ghosts| ==>
                    r.ghosts[k] == (if Threat(g.pacman, g.ghosts, k) then Ghosts.Reset(g.ghosts[k]) else g.ghosts[k]))
  {
    if !g.pacman.powered then
      UnpoweredDiesOnce(g, 0);
      CheckCollisionsFrom(g, 0)
    else if ThreatsFrom(g.pacman, g.ghosts, 0) == 0 then
      NoThreatNoChange(g, 0);
      PoweredEatsAll(g, 0);
      CheckCollisionsFrom(g, 0)
    else
      PoweredEatsAll(g, 0);
      CheckCollisionsFrom(g, 0)
  }

  /** The tile under Pac-Man. */
  function TileUnderPacman(g: Game): TileType {
    GetTile(g.maze, g.pacman.body.tileX, g.pacman.body.tileY)
  }

  /** Eat what lies under Pac-Man: a dot or a power pellet is cleared, the
      pellet count falls by one and 10 or 50 points are scored, and a power
      pellet also starts power mode. Any other tile changes nothing. */
  function CheckDotCollection(g: Game): (r: Game)
    ensures TileUnderPacman(g) == Dot ==>
              r.maze.dotsRemaining == g.maze.dotsRemaining - 1 && r.score == g.score + DotPoints
              && r.frightenedTimer == g.frightenedTimer
    ensures TileUnderPacman(g) == PowerPellet ==>
              r.maze.dotsRemaining == g.maze.dotsRemaining - 1 && r.score == g.score + PowerPelletPoints
              && r == ActivatePowerMode(AddScore(g.(maze := r.maze), PowerPelletPoints))
    ensures TileUnderPacman(g) !in {Dot, PowerPellet} ==> r == g
    ensures TileUnderPacman(g) in {Dot, PowerPellet} ==> TileUnderPacman(r) == Empty
    ensures TileUnderPacman(g) == Dot ==> r.ghosts == g.ghosts && r.pacman == g.pacman
    ensures TileUnderPacman(g) == Dot ==> r == AddScore(g.(maze := r.maze), DotPoints)
    ensures TileUnderPacman(r) !in {Dot, PowerPellet}
    ensures TileOf(r.pacman.body) == TileOf(g.pacman.body)
    ensures forall t :: t != TileOf(g.pacman.body) ==> r.maze.tileAt(t) == g.maze.tileAt(t)
    ensures r.lives == g.lives && r.level == g.level && r.layout == g.layout && r.highScore >= g.highScore
    ensures r.tick == g.tick && r.modeTick == g.modeTick && r.currentPattern == g.currentPattern
    ensures r.gameMode == g.gameMode
    ensures GameInvariant(g) ==> GameInvariant(r)
  {
    var x := g.pacman.body.tileX;
    var y := g.pacman.body.tileY;
    var tile := GetTile(g.maze, x, y);
    if tile == Dot then
      var cleared := SetTile(g.maze, x, y, Empty);
      AddScore(g.(maze := cleared.(dotsRemaining := cleared.dotsRemaining - 1)), DotPoints)
    else if tile == PowerPellet then
      var cleared := SetTile(g.maze, x, y, Empty);
      ActivatePowerMode(AddScore(g.(maze := cleared.(dotsRemaining := cleared.dotsRemaining - 1)),
                                 PowerPelletPoints))
    else g
  }

  /** A tile is never counted twice: collecting again on the same tile
      changes nothing. */
  lemma DotCollectionIdempotent(g: Game)
    ensures CheckDotCollection(CheckDotCollection(g)) == CheckDotCollection(g)
  {
  }

  /** One update of the game, in the order of `update` in game.js: clocks, mode
      controller, Pac-Man, each ghost in list order, collisions, pellet
      pickup, and the level-complete check. Nothing happens unless the game
      is PLAYING. */
  function Update(g: Game): (r: Game)
    requires g.gameMode == Playing && g.frightenedTimer == 1 ==> g.currentPattern < |Schedule|
    ensures g.gameMode != Playing ==> r == g
    ensures g.gameMode == Playing ==> r.tick == g.tick + 1
    ensures g.currentPattern < |Schedule| ==> r.currentPattern < |Schedule|
    ensures GameInvariant(g) ==> GameInvariant(r)
    ensures r.score >= g.score && r.highScore >= g.highScore
    ensures r.lives == g.lives || r.lives == g.lives - 1
    ensures r.level == g.level || (r.level == g.level + 1 && r.modeTick == 0 && r.currentPattern == 0)
    ensures g.gameMode == Playing && g.frightenedTimer > 1 ==>
              r.frightenedTimer == g.frightenedTimer - 1 || r.frightenedTimer == FrightenedDuration
  {
    if g.gameMode != Playing then g
    else Resolve(Advance(g))
  }

  /** The first half of an update: the clocks advance, the mode controller
      runs, then everybody moves. Score, lives and level are untouched. */
  function Advance(g: Game): (r: Game)
    requires g.frightenedTimer == 1 ==> g.currentPattern < |Schedule|
    ensures r.tick == g.tick + 1
    ensures r.score == g.score && r.highScore == g.highScore && r.lives == g.lives && r.level == g.level
    ensures g.currentPattern < |Schedule| ==> r.currentPattern < |Schedule|
    ensures g.frightenedTimer > 1 ==> r.frightenedTimer == g.frightenedTimer - 1
    ensures r.pacman.body == Move(Steer(g.pacman.body, g.maze, g.input).0, g.maze).(speed := r.pacman.body.speed)
    ensures var g2 := UpdateGhostModes(g.(tick := g.tick + 1, modeTick := g.modeTick + 1));
            && |r.ghosts| == |g2.ghosts| == |g.ghosts|
            && forall k :: 0 <= k < |g2.ghosts| ==>
                 r.ghosts[k] == GhostUpdate(g2.ghosts[k], g.maze, r.pacman, r.ghosts[..k] + g2.ghosts[k..])
    ensures g.frightenedTimer > 1 ==> forall k :: 0 <= k < |g.ghosts| ==> r.ghosts[k].mode == g.ghosts[k].mode
    ensures g.frightenedTimer == 1 ==>
              forall k :: 0 <= k < |g.ghosts| ==> r.ghosts[k].mode == Schedule[g.currentPattern].mode
    ensures (g.frightenedTimer == 0 && g.currentPattern + 1 < |Schedule|
             && Expired(g.(tick := g.tick + 1, modeTick := g.modeTick + 1))) ==>
              forall k :: 0 <= k < |g.ghosts| ==> r.ghosts[k].mode == Schedule[g.currentPattern + 1].mode
    ensures GameInvariant(g) ==> GameInvariant(r)
  {
    var g2 := UpdateGhostModes(g.(tick := g.tick + 1, modeTick := g.modeTick + 1));
    assert g2.pacman == g.pacman && g2.maze == g.maze && g2.input == g.input;
    MoveAll(g2)
  }

  /** An update in which, once everybody has moved, nobody touches and no
      pellet lies under Pac-Man ends with everybody where the movement
      phase put them: each ghost moved once in list order, and when
      frightened time ended, every ghost in the timetable's current mode. */
  lemma QuietUpdateMovesEveryone(g: Game)
    requires g.gameMode == Playing && (g.frightenedTimer == 1 ==> g.currentPattern < |Schedule|)
    ensures var a := Advance(g);
            (ThreatsFrom(a.pacman, a.ghosts, 0) == 0 && TileUnderPacman(a) !in {Dot, PowerPellet}
             && a.maze.dotsRemaining != 0) ==>
              && Update(g).pacman == a.pacman && Update(g).ghosts == a.ghosts
              && |Update(g).ghosts| == |g.ghosts|
              && (g.frightenedTimer == 1 ==>
                    forall k :: 0 <= k < |g.ghosts| ==> Update(g).ghosts[k].mode == Schedule[g.currentPattern].mode)
  {
  }

  /** The movement phase of an update: Pac-Man steps first, then each ghost
      in list order, chasing the Pac-Man that has already moved and seeing
      the ghosts before it as already moved. */
  function MoveAll(g: Game): (r: Game)
    ensures r == g.(pacman := r.pacman, input := r.input, ghosts := r.ghosts)
    ensures r.pacman.body == Move(Steer(g.pacman.body, g.maze, g.input).0, g.maze).(speed := r.pacman.body.speed)
    ensures r.input == Steer(g.pacman.body, g.maze, g.input).1
    ensures |r.ghosts| == |g.ghosts|
    ensures forall k :: 0 <= k < |g.ghosts| ==>
              r.ghosts[k] == GhostUpdate(g.ghosts[k], g.maze, r.pacman, r.ghosts[..k] + g.ghosts[k..])
    ensures GameInvariant(g) ==> GameInvariant(r)
  {
    var (p, input) := Player.Update(g.pacman, g.maze, g.input);
    g.(pacman := p, input := input, ghosts := UpdateGhostsFrom(g.ghosts, 0, g.maze, p))
  }

  /** While the game stays PLAYING, an update leaves Pac-Man where his own
      step put him: one steered move through the maze. */
  lemma UpdateMovesPacMan(g: Game)
    requires g.gameMode == Playing && (g.frightenedTimer == 1 ==> g.currentPattern < |Schedule|)
    ensures var e := Move(Steer(g.pacman.body, g.maze, g.input).0, g.maze);
            Update(g).gameMode == Playing ==> Update(g).pacman.body.x == e.x && Update(g).pacman.body.y == e.y
  {
  }

  /** The end of an update, once everybody has moved, as `update` in game.js
      does it: collisions, pellet pickup, then the level-complete check,
      which runs whatever the collisions did. */
  function Resolve(g: Game): (r: Game)
    ensures GameInvariant(g) ==> GameInvariant(r)
    ensures r.score >= g.score && r.highScore >= g.highScore
    ensures r.lives == g.lives || r.lives == g.lives - 1
    ensures r.level == g.level || (r.level == g.level + 1 && r.modeTick == 0 && r.currentPattern == 0)
    ensures r.level == g.level ==> r.modeTick == g.modeTick && r.currentPattern == g.currentPattern
    ensures r.tick == g.tick
    ensures r.frightenedTimer == g.frightenedTimer || r.frightenedTimer == FrightenedDuration
    ensures !g.pacman.powered && ThreatsFrom(g.pacman, g.ghosts, 0) > 0 ==> r.lives == g.lives - 1
    ensures ThreatsFrom(g.pacman, g.ghosts, 0) == 0 && TileUnderPacman(g) == Dot && g.maze.dotsRemaining > 1 ==>
              r.score == g.score + DotPoints && TileUnderPacman(r) == Empty
    ensures (ThreatsFrom(g.pacman, g.ghosts, 0) == 0 && TileUnderPacman(g) in {Dot, PowerPellet}
             && g.maze.dotsRemaining == 1) ==>
              r.level == g.level + 1 && r.gameMode == Ready && r.maze == g.layout
    ensures (ThreatsFrom(g.pacman, g.ghosts, 0) == 0 && TileUnderPacman(g) !in {Dot, PowerPellet}
             && g.maze.dotsRemaining != 0) ==> r == g
    ensures (ThreatsFrom(g.pacman, g.ghosts, 0) == 0 && TileUnderPacman(g) == PowerPellet
             && g.maze.dotsRemaining > 1) ==>
              && r.pacman.powered && r.frightenedTimer == FrightenedDuration
              && r.score == g.score + PowerPelletPoints && TileUnderPacman(r) == Empty
              && forall k :: 0 <= k < |r.ghosts| ==> r.ghosts[k].mode == Frightened
    ensures g.pacman.powered ==> r.lives == g.lives
    ensures (g.pacman.powered && TileUnderPacman(g) !in {Dot, PowerPellet} && g.maze.dotsRemaining != 0) ==>
              && |r.ghosts| == |g.ghosts|
              && r.score == g.score + EatPointsFrom(g.pacman, g.ghosts, 0, g.ghostsEaten)
              && forall k :: 0 <= k < |g.ghosts| ==>
                   r.ghosts[k] == (if Threat(g.pacman, g.ghosts, k) then Ghosts.Reset(g.ghosts[k]) else g.ghosts[k])
    ensures r.gameMode == Playing ==> r.pacman.body.x == g.pacman.body.x && r.pacman.body.y == g.pacman.body.y
  {
    var g5 := CheckCollisions(g);
    var g6 := CheckDotCollection(g5);
    if g6.maze.dotsRemaining == 0 then LevelComplete(g6) else g6
  }

  /** Losing the last life while eating the last dot: the game is over for
      one moment, then the level-complete check puts it back to READY with
      no lives left. The next death takes the lives to -1 and, since only
      exactly zero ends the game, leaves it READY again. */
  lemma LastLifeAndLastDot(g: Game)
    requires !g.pacman.powered && g.lives == 1
    requires ThreatsFrom(g.pacman, g.ghosts, 0) > 0
    requires TileUnderPacman(g) == Dot && g.maze.dotsRemaining == 1
    ensures CheckCollisions(g).gameMode == GameOver
    ensures Resolve(g).gameMode == Ready && Resolve(g).lives == 0
    ensures PacmanDies(Resolve(g)).gameMode == Ready && PacmanDies(Resolve(g)).lives == -1
  {
    var g5 := CheckCollisions(g);
    assert g5 == PacmanDies(g);
    assert TileUnderPacman(g5) == Dot;
  }

  /** The same order also collects a pellet after the game has ended: a
      dot still scores, and a power pellet still scores and powers Pac-Man
      up, frightening every ghost, in GAME OVER. */
  lemma GameOverStillCollects(g: Game)
    requires !g.pacman.powered && g.lives == 1
    requires ThreatsFrom(g.pacman, g.ghosts, 0) > 0
    requires TileUnderPacman(g) in {Dot, PowerPellet} && g.maze.dotsRemaining > 1
    ensures Resolve(g).gameMode == GameOver
    ensures TileUnderPacman(g) == Dot ==> Resolve(g).score == g.score + DotPoints
    ensures TileUnderPacman(g) == PowerPellet ==>
              && Resolve(g).score == g.score + PowerPelletPoints
              && Resolve(g).pacman.powered && Resolve(g).frightenedTimer == FrightenedDuration
  {
    var g5 := CheckCollisions(g);
    assert g5 == PacmanDies(g);
    assert TileUnderPacman(g5) == TileUnderPacman(g);
  }

  /** The end of an update as evidently intended: once the collisions have
      ended the game, nothing else happens in that update. */
  function ResolveIntended(g: Game): (r: Game)
    ensures CheckCollisions(g).gameMode == GameOver ==> r == CheckCollisions(g)
    ensures CheckCollisions(g).gameMode != GameOver ==> r == Resolve(g)
  {
    var g5 := CheckCollisions(g);
    if g5.gameMode == GameOver then g5 else Resolve(g)
  }

  /** With the intended end of an update, a playing game with lives left
      either keeps at least one life or is over; it never reaches zero lives
      outside GAME OVER. */
  lemma {:induction false} ResolveIntendedEndsGame(g: Game)
    requires g.gameMode == Playing && g.lives >= 1
    ensures ResolveIntended(g).lives >= 1 || ResolveIntended(g).gameMode == GameOver
    ensures ResolveIntended(g).lives == 0 ==> ResolveIntended(g).gameMode == GameOver
    ensures ResolveIntended(g).gameMode == GameOver ==>
              && ResolveIntended(g).score == g.score && ResolveIntended(g).pacman == g.pacman
              && ResolveIntended(g).frightenedTimer == g.frightenedTimer && ResolveIntended(g).maze == g.maze
  {
    var g5 := CheckCollisions(g);
    if g5.gameMode != GameOver {
      if !g.pacman.powered && ThreatsFrom(g.pacman, g.ghosts, 0) > 0 {
        assert g5 == PacmanDies(g);
        assert g.lives - 1 != 0;
      }
      assert g5.lives >= 1;
    }
  }

  /** Frightened time still counts toward the timetable: while it runs and
      the level goes on, the tick counter rises and the cursor stays. */
  lemma FrightenedTimeCounts(g: Game)
    requires g.currentPattern < |Schedule| && g.gameMode == Playing && g.frightenedTimer > 0
    ensures Update(g).level == g.level ==>
              Update(g).modeTick == g.modeTick + 1 && Update(g).currentPattern == g.currentPattern
  {
    var g1 := g.(tick := g.tick + 1, modeTick := g.modeTick + 1);
    UpdateGhostModesKeepsCursor(g1);
  }
}

=== FILE: ghosts.dfy ===
/** The state of a ghost and the rules of src/ghosts/ghost.js that do not
    depend on its personality: construction, the legal-neighbour filter, the
    arg-min choice among neighbours, heading reversal on a mode change, and
    reset. */
module Ghosts {
  import opened Constants
  import opened Grid
  import opened Entities

  /** Which chase rule a ghost follows. */
  datatype Personality = Blinky | Pinky | Inky | Clyde

  /** A ghost: a moving body plus identity, home, scatter corner, mode,
      current target tile and the heading it held after its last decision. */
  datatype Ghost = Ghost(body: Entity, kind: Personality, name: string, color: string,
                         scatterTarget: Tile, mode: GhostMode, targetTile: Tile,
                         homeX: real, homeY: real, previousDirection: Direction)

  /** A new ghost starts at its home in scatter mode, aiming at its scatter
      corner, with no heading and RIGHT as its previous heading. */
  function NewGhost(x: real, y: real, color: string, scatterTarget: Tile,
                    kind: Personality, name: string): (g: Ghost)
    ensures TileConsistent(g.body) && g.body.x == x && g.body.y == y
    ensures g.body.speed == GhostNormalSpeed
    ensures g.body.direction == None && g.body.nextDirection == None
    ensures g.mode == Scatter && g.targetTile == scatterTarget && g.scatterTarget == scatterTarget
    ensures g.homeX == x && g.homeY == y && g.previousDirection == Right
    ensures g.kind == kind && g.name == name && g.color == color
  {
    Ghost(NewEntity(x, y, GhostNormalSpeed), kind, name, color, scatterTarget, Scatter,
          scatterTarget, x, y, Right)
  }

  /** The reverse heading; None has none. */
  function OppositeDirection(d: Direction): (r: Direction)
    ensures DX(r) == -DX(d) && DY(r) == -DY(d)
    ensures d == None <==> r == None
  {
    match d
    case Up => Down
    case Down => Up
    case Left => Right
    case Right => Left
    case None => None
  }

  /** Reversing twice gives the heading back. */
  lemma OppositeInvolution(d: Direction)
    ensures OppositeDirection(OppositeDirection(d)) == d
    ensures OppositeDirection(d) != d || d == None
  {
  }

  /** Switch mode. A real change reverses the heading at once and records
      the reversed heading as the previous one; the same mode changes nothing. */
  function SetMode(g: Ghost, m: GhostMode): (r: Ghost)
    ensures g.mode == m ==> r == g
    ensures g.mode != m ==> r.mode == m && r.body.direction == OppositeDirection(g.body.direction)
                            && r.previousDirection == r.body.direction
    ensures r.mode == m
    ensures r == g.(mode := r.mode, body := r.body, previousDirection := r.previousDirection)
    ensures r.body == g.body.(direction := r.body.direction)
  {
    if g.mode != m then
      var d := OppositeDirection(g.body.direction);
      g.(mode := m, body := g.body.(direction := d), previousDirection := d)
    else g
  }

  /** Setting the same mode twice is setting it once; two real changes in a
      row restore the heading. */
  lemma SetModeTwice(g: Ghost, m: GhostMode, m': GhostMode)
    ensures SetMode(SetMode(g, m), m) == SetMode(g, m)
    ensures g.mode != m && m != m' ==> SetMode(SetMode(g, m), m').body.direction == g.body.direction
  {
    OppositeInvolution(g.body.direction);
  }

  /** Back home: home position, heading and previous heading RIGHT, scatter,
      normal speed, tile recomputed. The target tile and the queued heading
      are left as they were. */
  function Reset(g: Ghost): (r: Ghost)
    ensures TileConsistent(r.body) && r.body.x == g.homeX && r.body.y == g.homeY
    ensures r.body.direction == Right && r.previousDirection == Right
    ensures r.mode == Scatter && r.body.speed == GhostNormalSpeed
    ensures r.targetTile == g.targetTile && r.body.nextDirection == g.body.nextDirection
    ensures r.homeX == g.homeX && r.homeY == g.homeY && r.scatterTarget == g.scatterTarget
    ensures r.kind == g.kind && r.name == g.name
  {
    var b := g.body.(x := g.homeX, y := g.homeY, direction := Right, speed := GhostNormalSpeed);
    g.(body := UpdateTilePosition(b), previousDirection := Right, mode := Scatter)
  }

  /** The order in which neighbours are tried. */
  const Candidates: seq<Direction> := [Up, Down, Left, Right]

  /** Position of a heading in the evaluation order. */
  function Rank(d: Direction): nat {
    match d
    case Up => 0
    case Down => 1
    case Left => 2
    case Right => 3
    case None => 4
  }

  /** Strictly increasing in evaluation order (so also free of repeats). */
  predicate RankOrdered(s: seq<Direction>) {
    forall i, j :: 0 <= i < j < |s| ==> Rank(s[i]) < Rank(s[j])
  }

  lemma CandidatesInRankOrder()
    ensures forall i :: 0 <= i < |Candidates| ==> Rank(Candidates[i]) == i
    ensures forall d :: d in Candidates <==> d != None
  {
  }

  /** The neighbour along `d` is neither a wall nor the ghost gate. */
  predicate OpenNeighbour(g: Ghost, m: Maze, d: Direction) {
    var t := Neighbour(TileOf(g.body), d);
    !IsWall(m, t.x, t.y) && !IsGhostGate(m, t.x, t.y)
  }

  /** Whether the filter of getPossibleDirections keeps `d`: its neighbour
      is open, and it does not reverse the previous heading unless the ghost
      is at a tile centre. */
  predicate Allowed(g: Ghost, m: Maze, d: Direction) {
    && !(d == OppositeDirection(g.previousDirection) && !IsAtTileCenter(g.body))
    && OpenNeighbour(g, m, d)
  }

  /** The members of `cs` that `Allowed` keeps, in their order. */
  function FilterAllowed(g: Ghost, m: Maze, cs: seq<Direction>): (r: seq<Direction>)
    ensures |r| <= |cs|
    ensures forall d :: d in r <==> d in cs && Allowed(g, m, d)
  {
    if cs == [] then []
    else (if Allowed(g, m, cs[0]) then [cs[0]] else []) + FilterAllowed(g, m, cs[1..])
  }

  /** The candidate headings, in the fixed order, that the ghost may take. */
  function PossibleDirections(g: Ghost, m: Maze): (r: seq<Direction>)
    ensures forall d :: d in r <==> d != None && Allowed(g, m, d)
    ensures RankOrdered(r)
  {
    CandidatesInRankOrder();
    assert RankOrdered(Candidates);
    var r := FilterAllowed(g, m, Candidates);
    FilterKeepsOrder(g, m, Candidates);
    r
  }

  /** Filtering a rank-ordered list keeps it rank-ordered. */
  lemma {:induction false} FilterKeepsOrder(g: Ghost, m: Maze, cs: seq<Direction>)
    requires RankOrdered(cs)
    ensures RankOrdered(FilterAllowed(g, m, cs))
  {
    if cs != [] {
      FilterKeepsOrder(g, m, cs[1..]);
      var rest := FilterAllowed(g, m, cs[1..]);
      if Allowed(g, m, cs[0]) {
        var r := [cs[0]] + rest;
        assert r == FilterAllowed(g, m, cs);
        forall j | 0 < j < |r|
          ensures Rank(r[0]) < Rank(r[j])
        {
          var x := rest[j - 1];
          assert x in cs[1..];
          var k :| 0 <= k < |cs| - 1 && cs[1..][k] == x;
          assert cs[k + 1] == x;
        }
        forall i, j | 0 < i < j < |r|
          ensures Rank(r[i]) < Rank(r[j])
        {
          assert r[i] == rest[i - 1] && r[j] == rest[j - 1];
        }
      } else {
        assert rest == FilterAllowed(g, m, cs);
      }
    }
  }

  /** At a tile centre the reversal clause never removes a candidate: the
      ghost may turn back. */
  lemma AtCentreReversalAllowed(g: Ghost, m: Maze, d: Direction)
    requires IsAtTileCenter(g.body)
    ensures Allowed(g, m, d) <==> OpenNeighbour(g, m, d)
  {
  }

  /** Squared distance from the neighbour along `d` to `target`. */
  function NeighbourDist(from: Tile, d: Direction, target: Tile): nat {
    SqDist(Neighbour(from, d), target)
  }

  /** Index of the candidate whose neighbour is nearest `target`; among equal
      distances the earliest wins. */
  function BestIndex(cs: seq<Direction>, from: Tile, target: Tile): (i: nat)
    requires |cs| > 0
    ensures i < |cs|
    ensures forall j :: 0 <= j < |cs| ==> NeighbourDist(from, cs[i], target) <= NeighbourDist(from, cs[j], target)
    ensures forall j :: 0 <= j < i ==> NeighbourDist(from, cs[j], target) > NeighbourDist(from, cs[i], target)
  {
    if |cs| == 1 then 0
    else
      var k := 1 + BestIndex(cs[1..], from, target);
      if NeighbourDist(from, cs[0], target) <= NeighbourDist(from, cs[k], target) then 0 else k
  }

  /** The arg-min loop of chooseDirection, as written there: start with the
      first candidate and an infinite best distance, and replace the best
      only on a strictly smaller distance. It picks the same candidate as
      `BestIndex`. */
  method ChooseBest(cs: seq<Direction>, from: Tile, target: Tile) returns (best: Direction)
    requires |cs| > 0
    ensures best == cs[BestIndex(cs, from, target)]
  {
    best := cs[0];
    var bestAt := 0;
    var haveMin := false;   // false while the best distance is still infinite
    var minDist := 0;
    for i := 0 to |cs|
      invariant haveMin <==> i > 0
      invariant bestAt < |cs| && best == cs[bestAt]
      invariant i > 0 ==> bestAt < i && minDist == NeighbourDist(from, cs[bestAt], target)
      invariant forall j :: 0 <= j < i ==> minDist <= NeighbourDist(from, cs[j], target)
      invariant forall j :: 0 <= j < bestAt ==> NeighbourDist(from, cs[j], target) > minDist
    {
      var dist := NeighbourDist(from, cs[i], target);
      if !haveMin || dist < minDist {
        minDist := dist;
        best := cs[i];
        bestAt := i;
        haveMin := true;
      }
    }
    UniqueBest(cs, from, target, bestAt);
  }

  /** The earliest minimum is unique. */
  lemma UniqueBest(cs: seq<Direction>, from: Tile, target: Tile, k: nat)
    requires k < |cs|
    requires forall j :: 0 <= j < |cs| ==> NeighbourDist(from, cs[k], target) <= NeighbourDist(from, cs[j], target)
    requires forall j :: 0 <= j < k ==> NeighbourDist(from, cs[j], target) > NeighbourDist(from, cs[k], target)
    ensures k == BestIndex(cs, from, target)
  {
  }
}

=== FILE: grid.dfy ===
/** The maze as the rest of the game sees it: an abstract tile map with a
    count of the pellets still to be eaten. The maze file itself (its
    layout, bounds handling and reset) is not part of this model; a maze is
    any total map from tile coordinates to tile kinds. */
module Grid {
  import opened Constants

  /** Integer tile coordinates. */
  datatype Tile = Tile(x: int, y: int)

  /** The tile one step from `t` along heading `d`. */
  function Neighbour(t: Tile, d: Direction): (r: Tile)
    ensures d == None <==> r == t
    ensures (r.x - t.x) * (r.x - t.x) + (r.y - t.y) * (r.y - t.y) == (if d == None then 0 else 1)
  {
    DirectionVectors(d, d);
    Tile(t.x + DX(d), t.y + DY(d))
  }

  /** Squared straight-line distance between two tiles. Every square root
      taken in entity.js, ghost.js and game.js is only ever compared with
      another distance or with a constant, so the squares order the same
      way. */
  function SqDist(a: Tile, b: Tile): (r: nat)
    ensures r == 0 <==> a == b
  {
    (a.x - b.x) * (a.x - b.x) + (a.y - b.y) * (a.y - b.y)
  }

  /** The maze: what each tile holds, and the remaining pellet count. */
  datatype Maze = Maze(tileAt: Tile -> TileType, dotsRemaining: int)

  function GetTile(m: Maze, x: int, y: int): TileType {
    m.tileAt(Tile(x, y))
  }

  predicate IsWall(m: Maze, x: int, y: int) {
    GetTile(m, x, y) == Wall
  }

  predicate IsGhostGate(m: Maze, x: int, y: int) {
    GetTile(m, x, y) == GhostGate
  }

  /** Overwrite one tile; every other tile and the pellet count are kept. */
  function SetTile(m: Maze, x: int, y: int, k: TileType): (r: Maze)
    ensures GetTile(r, x, y) == k
    ensures forall t :: t != Tile(x, y) ==> r.tileAt(t) == m.tileAt(t)
    ensures r.dotsRemaining == m.dotsRemaining
  {
    Maze(t => if t == Tile(x, y) then k else m.tileAt(t), m.dotsRemaining)
  }
}

=== FILE: input.dfy ===
/** Keyboard input: the key-to-heading table and the one-slot buffer that
    holds the latest recognised key until Pac-Man consumes it (src/input.js). */
module Input {
  import opened Constants
  import opened Wrappers

  /** Lower-case one character. Only 'A'..'Z' are mapped; see the note on
      `ToLower`. */
  function LowerChar(c: char): (r: char)
    ensures 'A' <= c <= 'Z' ==> r as int == c as int + 32
    ensures !('A' <= c <= 'Z') ==> r == c
    ensures !('A' <= r <= 'Z')
  {
    if 'A' <= c <= 'Z' then (c as int + 32) as char else c
  }

  /** Lower-case a key name. Full Unicode case mapping is not modelled: no
      non-ASCII character lower-cases into a recognised key name, so the
      match result is the same. */
  function ToLower(s: string): (r: string)
    ensures |r| == |s|
    ensures forall i :: 0 <= i < |s| ==> r[i] == LowerChar(s[i])
  {
    if s == [] then [] else [LowerChar(s[0])] + ToLower(s[1..])
  }

  /** Lower-casing is idempotent. */
  lemma {:induction false} ToLowerIdempotent(s: string)
    ensures ToLower(ToLower(s)) == ToLower(s)
  {
    if s != [] {
      ToLowerIdempotent(s[1..]);
      assert ToLower(s)[1..] == ToLower(s[1..]);
    }
  }

  /** Arrow keys and W/S/A/D, in either case; anything else is not a heading. */
  function KeyToDirection(key: string): (r: Option<Direction>)
    ensures r.Some? ==> r.value != None
    ensures r.Some? <==> ToLower(key) in {"arrowup", "w", "arrowdown", "s", "arrowleft", "a", "arrowright", "d"}
    ensures r == Some(Up) <==> ToLower(key) in {"arrowup", "w"}
    ensures r == Some(Down) <==> ToLower(key) in {"arrowdown", "s"}
    ensures r == Some(Left) <==> ToLower(key) in {"arrowleft", "a"}
    ensures r == Some(Right) <==> ToLower(key) in {"arrowright", "d"}
  {
    var k := ToLower(key);
    if k == "arrowup" || k == "w" then Some(Up)
    else if k == "arrowdown" || k == "s" then Some(Down)
    else if k == "arrowleft" || k == "a" then Some(Left)
    else if k == "arrowright" || k == "d" then Some(Right)
    else Nothing
  }

  /** Matching ignores case. */
  lemma KeyCaseInsensitive(key: string)
    ensures KeyToDirection(ToLower(key)) == KeyToDirection(key)
  {
    ToLowerIdempotent(key);
  }

  /** `t` is the lower-case form of `s` when it agrees with it character by
      character. */
  lemma LowerMatches(s: string, t: string)
    requires |s| == |t| && forall i :: 0 <= i < |s| ==> LowerChar(s[i]) == t[i]
    ensures ToLower(s) == t
  {
  }

  /** Upper-case spellings of each recognised key. */
  lemma KeyExamplesUp()
    ensures KeyToDirection("ArrowUp") == Some(Up) && KeyToDirection("W") == Some(Up)
  {
    LowerMatches("ArrowUp", "arrowup");
    LowerMatches("W", "w");
  }

  lemma KeyExamplesDown()
    ensures KeyToDirection("ArrowDown") == Some(Down) && KeyToDirection("S") == Some(Down)
  {
    LowerMatches("ArrowDown", "arrowdown");
    LowerMatches("S", "s");
  }

  lemma KeyExamplesLeft()
    ensures KeyToDirection("ArrowLeft") == Some(Left) && KeyToDirection("A") == Some(Left)
  {
    LowerMatches("ArrowLeft", "arrowleft");
    LowerMatches("A", "a");
  }

  lemma KeyExamplesRight()
    ensures KeyToDirection("ArrowRight") == Some(Right) && KeyToDirection("D") == Some(Right)
  {
    LowerMatches("ArrowRight", "arrowright");
    LowerMatches("D", "d");
  }

  /** The input handler: the latest recognised heading, or None. */
  datatype InputHandler = InputHandler(bufferedInput: Direction)

  /** A new handler holds nothing. */
  function NewInputHandler(): (h: InputHandler)
    ensures h.bufferedInput == None
  {
    InputHandler(None)
  }

  /** A key press: a recognised key overwrites the buffer, any other key
      leaves it alone. */
  function KeyDown(h: InputHandler, key: string): (r: InputHandler)
    ensures KeyToDirection(key).Some? ==> r.bufferedInput == KeyToDirection(key).value
    ensures KeyToDirection(key).Nothing? ==> r == h
    ensures r.bufferedInput == h.bufferedInput || r.bufferedInput != None
  {
    match KeyToDirection(key)
    case Some(d) => InputHandler(d)
    case Nothing => h
  }

  function GetBufferedInput(h: InputHandler): Direction {
    h.bufferedInput
  }

  /** Forget the buffered heading. */
  function ClearBuffer(h: InputHandler): (r: InputHandler)
    ensures GetBufferedInput(r) == None
  {
    InputHandler(None)
  }

  /** The latest recognised key wins, whatever was pressed before it. */
  lemma LatestKeyWins(h: InputHandler, h': InputHandler, key: string)
    requires KeyToDirection(key).Some?
    ensures KeyDown(h, key) == KeyDown(h', key)
  {
  }

  /** Presses of unrecognised keys between two moments change nothing. */
  lemma {:induction false} IgnoredKeys(h: InputHandler, keys: seq<string>)
    requires forall i :: 0 <= i < |keys| ==> KeyToDirection(keys[i]).Nothing?
    ensures PressAll(h, keys) == h
  {
    if keys != [] {
      IgnoredKeys(h, keys[..|keys| - 1]);
    }
  }

  /** A run of key presses, oldest first. */
  function PressAll(h: InputHandler, keys: seq<string>): InputHandler {
    if keys == [] then h else KeyDown(PressAll(h, keys[..|keys| - 1]), keys[|keys| - 1])
  }

  /** After a run of presses the buffer holds the last recognised key of the
      run, or what it held before when none was recognised. */
  lemma {:induction false} LastRecognisedKeyIsBuffered(h: InputHandler, keys: seq<string>, i: nat)
    requires i < |keys| && KeyToDirection(keys[i]).Some?
    requires forall j :: i < j < |keys| ==> KeyToDirection(keys[j]).Nothing?
    ensures PressAll(h, keys).bufferedInput == KeyToDirection(keys[i]).value
  {
    if i < |keys| - 1 {
      LastRecognisedKeyIsBuffered(h, keys[..|keys| - 1], i);
    }
  }
}

=== FILE: navigation.dfy ===
/** How a ghost steers (src/ghosts/ghost.js, update / chooseDirection /
    updateTargetTile): refresh the target by mode, then take the open
    neighbour nearest the target, and move. */
module Navigation {
  import opened Constants
  import opened Grid
  import opened Entities
  import opened Player
  import opened Ghosts
  import opened Personalities

  /** Refresh the target tile: the scatter corner in scatter mode, the
      personality's chase target in chase mode, and the previous target
      (possibly stale) in frightened and eaten mode. */
  function UpdateTargetTile(g: Ghost, p: PacMan, gs: seq<Ghost>): (r: Ghost)
    ensures g.mode == Scatter ==> r.targetTile == g.scatterTarget
    ensures g.mode == Chase ==> r.targetTile == ChaseTarget(g, p, gs)
    ensures g.mode == Frightened || g.mode == Eaten ==> r == g
    ensures r == g.(targetTile := r.targetTile)
  {
    if g.mode == Scatter then g.(targetTile := g.scatterTarget)
    else if g.mode == Chase then g.(targetTile := ChaseTarget(g, p, gs))
    else g
  }

  /** In a rank-ordered list, a member of lower rank than the one at `i`
      sits before `i`. */
  lemma EarlierRankEarlierIndex(cs: seq<Direction>, i: nat, d: Direction) returns (j: nat)
    requires RankOrdered(cs) && i < |cs| && d in cs && Rank(d) < Rank(cs[i])
    ensures j < i && cs[j] == d
  {
    j :| j < |cs| && cs[j] == d;
  }

  /** The heading chooseDirection takes: among the allowed candidates, the
      one whose neighbour is nearest the target, earliest on ties. */
  predicate BestChoice(g: Ghost, m: Maze, d: Direction) {
    && d != None && Allowed(g, m, d)
    && (forall d' :: d' != None && Allowed(g, m, d') ==>
          NeighbourDist(TileOf(g.body), d, g.targetTile) <= NeighbourDist(TileOf(g.body), d', g.targetTile))
    && (forall d' :: d' != None && Allowed(g, m, d') && Rank(d') < Rank(d) ==>
          NeighbourDist(TileOf(g.body), d', g.targetTile) > NeighbourDist(TileOf(g.body), d, g.targetTile))
  }

  /** At most one heading is the best choice. */
  lemma BestChoiceUnique(g: Ghost, m: Maze, d: Direction, d': Direction)
    requires BestChoice(g, m, d) && BestChoice(g, m, d')
    ensures d == d'
  {
    if Rank(d) < Rank(d') {
    } else if Rank(d') < Rank(d) {
    } else {
      assert d == d' by { DirectionVectors(d, d'); }
    }
  }

  /** Refresh the target, then take the best allowed heading as both the
      heading and the previous heading. With no allowed heading only the
      target changes. */
  function ChooseDirection(g: Ghost, m: Maze, p: PacMan, gs: seq<Ghost>): (r: Ghost)
    ensures var g1 := UpdateTargetTile(g, p, gs);
      && r == g1.(body := r.body, previousDirection := r.previousDirection)
      && r.body == g1.body.(direction := r.body.direction)
      && ((forall d :: d != None ==> !Allowed(g, m, d)) ==> r == g1)
      && (!(forall d :: d != None ==> !Allowed(g, m, d)) ==>
            r.body.direction == r.previousDirection && BestChoice(g1, m, r.body.direction))
  {
    var g1 := UpdateTargetTile(g, p, gs);
    var cs := PossibleDirections(g1, m);
    assert forall d :: Allowed(g1, m, d) == Allowed(g, m, d);
    if cs == [] then g1
    else
      var i := BestIndex(cs, TileOf(g1.body), g1.targetTile);
      var d := cs[i];
      assert d in cs;
      forall d' | d' != None && Allowed(g1, m, d') && Rank(d') < Rank(d)
        ensures NeighbourDist(TileOf(g1.body), d', g1.targetTile) > NeighbourDist(TileOf(g1.body), d, g1.targetTile)
      {
        var j := EarlierRankEarlierIndex(cs, i, d');
      }
      g1.(body := g1.body.(direction := d), previousDirection := d)
  }

  /** One ghost update: at a tile centre choose a heading, then move. */
  function GhostUpdate(g: Ghost, m: Maze, p: PacMan, gs: seq<Ghost>): (r: Ghost)
    ensures TileConsistent(g.body) ==> TileConsistent(r.body)
    ensures r.mode == g.mode && r.kind == g.kind && r.name == g.name
    ensures r.homeX == g.homeX && r.homeY == g.homeY && r.scatterTarget == g.scatterTarget
    ensures !IsAtTileCenter(g.body) ==> r == g.(body := Move(g.body, m))
    ensures IsAtTileCenter(g.body) ==>
              var c := ChooseDirection(g, m, p, gs);
              r == c.(body := Move(c.body, m)) && r.body.direction == c.body.direction
  {
    if IsAtTileCenter(g.body) then
      var c := ChooseDirection(g, m, p, gs);
      c.(body := Move(c.body, m))
    else
      g.(body := Move(g.body, m))
  }

  /** At a tile centre the ghost takes the nearest open neighbour even when
      it is the way it came: reversal is not filtered there. */
  lemma CentreChoiceIgnoresReversal(g: Ghost, m: Maze, p: PacMan, gs: seq<Ghost>, d: Direction)
    requires IsAtTileCenter(g.body)
    requires d != None && OpenNeighbour(g, m, d)
    ensures var r := ChooseDirection(g, m, p, gs);
            var g1 := UpdateTargetTile(g, p, gs);
            NeighbourDist(TileOf(g.body), r.body.direction, g1.targetTile)
              <= NeighbourDist(TileOf(g.body), d, g1.targetTile)
  {
    var g1 := UpdateTargetTile(g, p, gs);
    AtCentreReversalAllowed(g, m, d);
    AtCentreReversalAllowed(g1, m, d);
  }

  /** The best choice is at least as near the target as any allowed heading. */
  lemma BestIsNearest(g: Ghost, m: Maze, d: Direction, d': Direction)
    requires BestChoice(g, m, d) && d' != None && Allowed(g, m, d')
    ensures d != None
    ensures NeighbourDist(TileOf(g.body), d, g.targetTile) <= NeighbourDist(TileOf(g.body), d', g.targetTile)
  {
  }

  /** From tile (10, 10) towards (0, 10) the Left neighbour is at squared
      distance 81 (9 tiles); Up and Down are at 101 and Right at 121. */
  lemma DistancesTowardsLeft()
    ensures NeighbourDist(Tile(10, 10), Left, Tile(0, 10)) == 81
    ensures NeighbourDist(Tile(10, 10), Up, Tile(0, 10)) == 101
    ensures NeighbourDist(Tile(10, 10), Down, Tile(0, 10)) == 101
    ensures NeighbourDist(Tile(10, 10), Right, Tile(0, 10)) == 121
  {
    assert Neighbour(Tile(10, 10), Left) == Tile(9, 10);
    assert Neighbour(Tile(10, 10), Up) == Tile(10, 9);
    assert Neighbour(Tile(10, 10), Down) == Tile(10, 11);
    assert Neighbour(Tile(10, 10), Right) == Tile(11, 10);
  }

  /** A scattering ghost heading Right at a centre of an open crossing, with
      its scatter corner straight to its left, turns back Left: a reversal
      without any mode change. */
  lemma ReversalWithoutModeChange(g: Ghost, m: Maze, p: PacMan, gs: seq<Ghost>)
    requires IsAtTileCenter(g.body) && TileOf(g.body) == Tile(10, 10)
    requires g.body.direction == Right && g.previousDirection == Right
    requires g.mode == Scatter && g.scatterTarget == Tile(0, 10)
    requires forall d :: d != None ==> OpenNeighbour(g, m, d)
    ensures ChooseDirection(g, m, p, gs).body.direction == Left
  {
    var g1 := UpdateTargetTile(g, p, gs);
    AtCentreReversalAllowed(g, m, Left);
    AtCentreReversalAllowed(g1, m, Left);
    var d := ChooseDirection(g, m, p, gs).body.direction;
    BestIsNearest(g1, m, d, Left);
    DistancesTowardsLeft();
  }

  /** Update the ghosts one by one from index `i`, in place: each ghost from
      `i` on is updated exactly once, seeing the ghosts before it as already
      updated this tick and the ones after it as they were. */
  function UpdateGhostsFrom(gs: seq<Ghost>, i: nat, m: Maze, p: PacMan): (r: seq<Ghost>)
    requires i <= |gs|
    ensures |r| == |gs|
    ensures forall k :: 0 <= k < i ==> r[k] == gs[k]
    ensures forall k :: i <= k < |gs| ==> r[k] == GhostUpdate(gs[k], m, p, r[..k] + gs[k..])
    ensures forall k :: 0 <= k < |gs| ==> r[k].mode == gs[k].mode && r[k].kind == gs[k].kind
                                          && r[k].name == gs[k].name
    ensures (forall k :: 0 <= k < |gs| ==> TileConsistent(gs[k].body)) ==>
              forall k :: 0 <= k < |r| ==> TileConsistent(r[k].body)
    decreases |gs| - i
  {
    if i == |gs| then gs
    else
      var gs' := gs[i := GhostUpdate(gs[i], m, p, gs)];
      var r := UpdateGhostsFrom(gs', i + 1, m, p);
      SeesEarlierStep(gs, gs', r, i, m, p);
      r
  }

  /** One step of the pass: if the rest of the pass from `i + 1` saw the
      list with ghost `i` already updated, then every ghost from `i` on saw
      the list as already updated before it and as it was after it. */
  lemma {:induction false} SeesEarlierStep(gs: seq<Ghost>, gs': seq<Ghost>, r: seq<Ghost>, i: nat, m: Maze, p: PacMan)
    requires i < |gs| == |r|
    requires gs' == gs[i := GhostUpdate(gs[i], m, p, gs)]
    requires forall k :: 0 <= k < i + 1 ==> r[k] == gs'[k]
    requires forall k :: i + 1 <= k < |gs'| ==> r[k] == GhostUpdate(gs'[k], m, p, r[..k] + gs'[k..])
    ensures forall k :: i <= k < |gs| ==> r[k] == GhostUpdate(gs[k], m, p, r[..k] + gs[k..])
  {
    assert r[..i] + gs[i..] == gs;
    forall k | i + 1 <= k < |gs|
      ensures r[k] == GhostUpdate(gs[k], m, p, r[..k] + gs[k..])
    {
      assert gs'[k..] == gs[k..];
    }
  }
}

=== FILE: personalities.dfy ===
/** The four ghost personalities: their starting data and the chase-target
    rule each follows (src/ghosts/blinky.js, pinky.js, inky.js, clyde.js). */
module Personalities {
  import opened Constants
  import opened Wrappers
  import opened Grid
  import opened Entities
  import opened Player
  import opened Ghosts

  /** The name Inky looks for among the ghosts. */
  const BlinkyName: string := "Blinky"

  /** Blinky: red, from (13.5, 14.5), scatter corner (25, 0). */
  function NewBlinky(): (g: Ghost)
    ensures g.kind == Blinky && g.name == BlinkyName && g.color == "red"
    ensures g.homeX == 13.5 && g.homeY == 14.5 && TileOf(g.body) == Tile(13, 14)
    ensures g.scatterTarget == Tile(25, 0) && g.targetTile == Tile(25, 0)
    ensures g.mode == Scatter && g.body.direction == None && g.previousDirection == Right
  {
    NewGhost(13.5, 14.5, "red", Tile(25, 0), Blinky, BlinkyName)
  }

  /** Pinky: pink, from (13.5, 17.5), scatter corner (2, 0). */
  function NewPinky(): (g: Ghost)
    ensures g.kind == Pinky && g.name == "Pinky" && g.color == "pink"
    ensures g.homeX == 13.5 && g.homeY == 17.5 && TileOf(g.body) == Tile(13, 17)
    ensures g.scatterTarget == Tile(2, 0) && g.targetTile == Tile(2, 0)
    ensures g.mode == Scatter && g.body.direction == None && g.previousDirection == Right
  {
    NewGhost(13.5, 17.5, "pink", Tile(2, 0), Pinky, "Pinky")
  }

  /** Inky: cyan, from (11.5, 17.5), scatter corner (27, 35). */
  function NewInky(): (g: Ghost)
    ensures g.kind == Inky && g.name == "Inky" && g.color == "cyan"
    ensures g.homeX == 11.5 && g.homeY == 17.5 && TileOf(g.body) == Tile(11, 17)
    ensures g.scatterTarget == Tile(27, 35) && g.targetTile == Tile(27, 35)
    ensures g.mode == Scatter && g.body.direction == None && g.previousDirection == Right
  {
    NewGhost(11.5, 17.5, "cyan", Tile(27, 35), Inky, "Inky")
  }

  /** Clyde: orange, from (15.5, 17.5), scatter corner (0, 35). */
  function NewClyde(): (g: Ghost)
    ensures g.kind == Clyde && g.name == "Clyde" && g.color == "orange"
    ensures g.homeX == 15.5 && g.homeY == 17.5 && TileOf(g.body) == Tile(15, 17)
    ensures g.scatterTarget == Tile(0, 35) && g.targetTile == Tile(0, 35)
    ensures g.mode == Scatter && g.body.direction == None && g.previousDirection == Right
  {
    NewGhost(15.5, 17.5, "orange", Tile(0, 35), Clyde, "Clyde")
  }

  /** Pac-Man's tile. */
  function PacTile(p: PacMan): Tile {
    TileOf(p.body)
  }

  /** Blinky chases Pac-Man's own tile. */
  function BlinkyTarget(p: PacMan): (t: Tile)
    ensures t.x == p.body.tileX && t.y == p.body.tileY
  {
    PacTile(p)
  }

  /** `n` tiles ahead of `t` along `d`, with the arcade game's overflow
      quirk kept: facing Up also shifts `n` tiles to the left. */
  function Ahead(t: Tile, d: Direction, n: int): (r: Tile)
    ensures r.x == t.x + n * DX(d) - (if d == Up then n else 0)
    ensures r.y == t.y + n * DY(d)
  {
    match d
    case Up => Tile(t.x - n, t.y - n)
    case Down => Tile(t.x, t.y + n)
    case Left => Tile(t.x - n, t.y)
    case Right => Tile(t.x + n, t.y)
    case None => t
  }

  /** Pinky aims four tiles ahead of Pac-Man. */
  function PinkyTarget(p: PacMan): (t: Tile)
    ensures p.body.direction != Up ==>
              t == Tile(p.body.tileX + 4 * DX(p.body.direction), p.body.tileY + 4 * DY(p.body.direction))
    ensures p.body.direction == Up ==> t == Tile(p.body.tileX - 4, p.body.tileY - 4)
  {
    Ahead(PacTile(p), p.body.direction, 4)
  }

  /** The first ghost in list order carrying `name`, if any. */
  function FindNamed(gs: seq<Ghost>, name: string): (r: Option<nat>)
    ensures r.Some? ==> r.value < |gs| && gs[r.value].name == name
                        && forall j :: 0 <= j < r.value ==> gs[j].name != name
    ensures r.Nothing? <==> forall j :: 0 <= j < |gs| ==> gs[j].name != name
  {
    if gs == [] then Nothing
    else if gs[0].name == name then Some(0)
    else match FindNamed(gs[1..], name)
      case Some(i) => Some(i + 1)
      case Nothing => Nothing
  }

  /** The pivot two tiles ahead of Pac-Man that Inky reflects Blinky through. */
  function InkyPivot(p: PacMan): Tile {
    Ahead(PacTile(p), p.body.direction, 2)
  }

  /** Inky doubles the vector from Blinky's tile to the pivot, so the pivot
      lies halfway between Blinky and the target. Without a ghost named
      Blinky it aims at Pac-Man's tile. */
  function InkyTarget(p: PacMan, gs: seq<Ghost>): (t: Tile)
    ensures FindNamed(gs, BlinkyName).Nothing? ==> t == PacTile(p)
    ensures FindNamed(gs, BlinkyName).Some? ==>
              var b := gs[FindNamed(gs, BlinkyName).value].body;
              t.x + b.tileX == 2 * InkyPivot(p).x && t.y + b.tileY == 2 * InkyPivot(p).y
  {
    match FindNamed(gs, BlinkyName)
    case Nothing => PacTile(p)
    case Some(i) =>
      var pivot := InkyPivot(p);
      var b := gs[i].body;
      var vx := pivot.x - b.tileX;
      var vy := pivot.y - b.tileY;
      Tile(pivot.x + vx, pivot.y + vy)
  }

  /** Clyde chases Pac-Man's tile while more than eight tiles from it
      (squared distance above 64, measured from Clyde's tile) and otherwise
      heads for his scatter corner. */
  function ClydeTarget(g: Ghost, p: PacMan): (t: Tile)
    ensures t == PacTile(p) || t == g.scatterTarget
    ensures DistanceSqTo(g.body, PacTile(p)) > 64 ==> t == PacTile(p)
    ensures DistanceSqTo(g.body, PacTile(p)) <= 64 ==> t == g.scatterTarget
  {
    if DistanceSqTo(g.body, PacTile(p)) > 64 then PacTile(p) else g.scatterTarget
  }

  /** The chase target of a ghost, by its personality. */
  function ChaseTarget(g: Ghost, p: PacMan, gs: seq<Ghost>): (t: Tile)
    ensures g.kind == Blinky ==> t == PacTile(p)
    ensures g.kind == Pinky ==> t == Ahead(PacTile(p), p.body.direction, 4)
    ensures g.kind == Inky ==> t == InkyTarget(p, gs)
    ensures g.kind == Clyde ==> t == ClydeTarget(g, p) && (t == PacTile(p) || t == g.scatterTarget)
  {
    match g.kind
    case Blinky => BlinkyTarget(p)
    case Pinky => PinkyTarget(p)
    case Inky => InkyTarget(p, gs)
    case Clyde => ClydeTarget(g, p)
  }

  /** Only Inky's chase target depends on the other ghosts; none depends on
      where a ghost stands inside its tile. */
  lemma ChaseTargetDependencies(g: Ghost, g': Ghost, p: PacMan, gs: seq<Ghost>, gs': seq<Ghost>)
    requires g.kind == g'.kind && g.kind != Inky
    requires TileOf(g.body) == TileOf(g'.body) && g.scatterTarget == g'.scatterTarget
    ensures ChaseTarget(g, p, gs) == ChaseTarget(g', p, gs')
  {
  }

  /** Pinky with Pac-Man on (10, 10): four tiles ahead, four up and four
      left when facing Up, and Pac-Man's own tile when he has no heading. */
  lemma PinkyExamples(p: PacMan)
    requires p.body.tileX == 10 && p.body.tileY == 10
    ensures p.body.direction == Right ==> PinkyTarget(p) == Tile(14, 10)
    ensures p.body.direction == Down ==> PinkyTarget(p) == Tile(10, 14)
    ensures p.body.direction == Left ==> PinkyTarget(p) == Tile(6, 10)
    ensures p.body.direction == Up ==> PinkyTarget(p) == Tile(6, 6)
    ensures p.body.direction == None ==> PinkyTarget(p) == Tile(10, 10)
  {
  }

  /** Inky with Pac-Man on (10, 10) and Blinky on (8, 8). Facing Up the
      pivot is (8, 8), Blinky's own tile, so the target is the pivot. */
  lemma InkyExamples(p: PacMan, b: Ghost)
    requires p.body.tileX == 10 && p.body.tileY == 10
    requires b.name == BlinkyName && TileOf(b.body) == Tile(8, 8)
    ensures p.body.direction == Right ==> InkyTarget(p, [b]) == Tile(16, 12)
    ensures p.body.direction == Down ==> InkyTarget(p, [b]) == Tile(12, 16)
    ensures p.body.direction == Up ==> InkyTarget(p, [b]) == Tile(8, 8) == InkyPivot(p)
    ensures InkyTarget(p, []) == Tile(10, 10)
  {
    assert FindNamed([b], BlinkyName) == Some(0);
  }

  /** Inky follows the first ghost named Blinky in list order. */
  lemma InkyUsesFirstBlinky(p: PacMan, b: Ghost, b': Ghost, rest: seq<Ghost>)
    requires b.name == BlinkyName
    ensures InkyTarget(p, [b] + [b'] + rest) == InkyTarget(p, [b])
  {
    assert ([b] + [b'] + rest)[0] == b;
  }

  /** Clyde's threshold: at exactly eight tiles he retreats, at nine he
      chases; the distance is taken from his tile. */
  lemma ClydeExamples(g: Ghost, p: PacMan)
    requires TileOf(g.body) == Tile(10, 10)
    ensures PacTile(p) == Tile(18, 10) ==> ClydeTarget(g, p) == g.scatterTarget
    ensures PacTile(p) == Tile(12, 12) ==> ClydeTarget(g, p) == g.scatterTarget
    ensures PacTile(p) == Tile(10, 3) ==> ClydeTarget(g, p) == g.scatterTarget
    ensures PacTile(p) == Tile(19, 10) ==> ClydeTarget(g, p) == PacTile(p)
    ensures PacTile(p) == Tile(16, 16) ==> ClydeTarget(g, p) == PacTile(p)
  {
  }

  /** Clyde far from Pac-Man, as in the first threshold case: from (0, 0) to
      (15, 15) he chases. Whatever the positions, Clyde aims only at Pac-Man's
      tile or his corner (0, 35). */
  lemma ClydeTargetsTwoTiles(g: Ghost, p: PacMan)
    requires g.kind == Clyde && g.scatterTarget == NewClyde().scatterTarget
    ensures ChaseTarget(g, p, []) == PacTile(p) || ChaseTarget(g, p, []) == Tile(0, 35)
    ensures TileOf(g.body) == Tile(0, 0) && PacTile(p) == Tile(15, 15) ==> ChaseTarget(g, p, []) == Tile(15, 15)
  {
  }
}

=== FILE: player.dfy ===
/** Pac-Man: buffered turning at tile centres, the animation counters and the
    powered countdown (src/pacman.js). */
module Player {
  import opened Constants
  import opened Grid
  import opened Entities
  import opened Input

  datatype PacMan = PacMan(body: Entity, animFrame: nat, animCounter: nat,
                           powered: bool, poweredTimer: nat)

  /** What every reachable Pac-Man satisfies: a consistent tile, both
      animation counters in 0..3, and powered exactly while time is left. */
  predicate Valid(p: PacMan) {
    && TileConsistent(p.body)
    && p.animFrame < 4 && p.animCounter < 4
    && (p.powered <==> p.poweredTimer > 0)
  }

  /** A new Pac-Man: at rest on the floor of (x, y), not powered, normal speed. */
  function NewPacMan(x: real, y: real): (p: PacMan)
    ensures Valid(p)
    ensures p.body.x == x && p.body.y == y && p.body.speed == PacmanNormalSpeed
    ensures p.body.direction == None && p.body.nextDirection == None
    ensures !p.powered && p.animFrame == 0 && p.animCounter == 0
  {
    PacMan(NewEntity(x, y, PacmanNormalSpeed), 0, 0, false, 0)
  }

  /** The frame advances once every four updates, cycling through 0..3. */
  function UpdateAnimation(p: PacMan): (r: PacMan)
    ensures r.animCounter < 4
    ensures p.animFrame < 4 ==> r.animFrame < 4
    ensures p.animCounter < 3 ==> r.animFrame == p.animFrame && r.animCounter == p.animCounter + 1
    ensures r == p.(animFrame := r.animFrame, animCounter := r.animCounter)
  {
    var c := p.animCounter + 1;
    if c >= 4 then p.(animFrame := (p.animFrame + 1) % 4, animCounter := 0)
    else p.(animCounter := c)
  }

  /** Four updates from a fresh counter show the next frame. */
  lemma AnimationCycle(p: PacMan)
    requires p.animCounter == 0 && p.animFrame < 4
    ensures var q := UpdateAnimation(UpdateAnimation(UpdateAnimation(UpdateAnimation(p))));
            q.animCounter == 0 && q.animFrame == (p.animFrame + 1) % 4
  {
  }

  /** Start powered time: powered, `duration` updates left, powered speed. */
  function SetPowered(p: PacMan, duration: nat): (r: PacMan)
    ensures r.powered && r.poweredTimer == duration && r.body.speed == PacmanPoweredSpeed
    ensures r.body == p.body.(speed := PacmanPoweredSpeed)
    ensures duration > 0 && Valid(p) ==> Valid(r)
  {
    p.(powered := true, poweredTimer := duration, body := p.body.(speed := PacmanPoweredSpeed))
  }

  /** One update of the powered countdown: it runs only while powered with
      time left, and on reaching zero Pac-Man returns to normal. */
  function TickPower(p: PacMan): (r: PacMan)
    ensures p.powered && p.poweredTimer > 0 ==> r.poweredTimer == p.poweredTimer - 1
    ensures p.powered && p.poweredTimer == 1 ==> !r.powered && r.body.speed == PacmanNormalSpeed
    ensures p.powered && p.poweredTimer > 1 ==> r.powered && r.body == p.body
    ensures !p.powered || p.poweredTimer == 0 ==> r == p
    ensures Valid(p) ==> Valid(r)
    ensures TileOf(r.body) == TileOf(p.body) && r.body.x == p.body.x && r.body.y == p.body.y
  {
    if p.powered && p.poweredTimer > 0 then
      var t := p.poweredTimer - 1;
      if t == 0 then p.(poweredTimer := 0, powered := false, body := p.body.(speed := PacmanNormalSpeed))
      else p.(poweredTimer := t)
    else p
  }

  /** `n` countdown updates in a row. */
  function TickPowerN(p: PacMan, n: nat): PacMan
    decreases n
  {
    if n == 0 then p else TickPowerN(TickPower(p), n - 1)
  }

  /** Powered time lasts exactly the duration it was started with: still
      powered one update before the end, back to normal at the end. */
  lemma {:induction false} PowerRunsOut(p: PacMan, n: nat)
    requires p.powered && p.poweredTimer == n && n > 0
    decreases n
    ensures n > 1 ==> TickPowerN(p, n - 1).powered
    ensures var q := TickPowerN(p, n);
            !q.powered && q.poweredTimer == 0 && q.body.speed == PacmanNormalSpeed
  {
    if n > 1 {
      PowerRunsOut(TickPower(p), n - 1);
    }
  }

  /** The turning rule applied at the start of every update (pacman.js
      lines 16-30): a recognised buffered heading replaces the queued one;
      at a tile centre the queued heading is taken if its tile is not a
      wall (emptying the buffer), and otherwise Pac-Man stops if his own
      heading is blocked too. */
  function Steer(e: Entity, m: Maze, input: InputHandler): (r: (Entity, InputHandler))
    ensures var next := if GetBufferedInput(input) != None then GetBufferedInput(input) else e.nextDirection;
      && r.0 == e.(direction := r.0.direction, nextDirection := r.0.nextDirection)
      && (!IsAtTileCenter(e) ==> r.0.direction == e.direction && r.0.nextDirection == next && r.1 == input)
      && (IsAtTileCenter(e) ==> r.0.direction == None || CanMoveInDirection(e, m, r.0.direction))
      && (IsAtTileCenter(e) && CanMoveInDirection(e, m, next) ==>
            r.0.direction == next && r.0.nextDirection == None && GetBufferedInput(r.1) == None)
      && (IsAtTileCenter(e) && !CanMoveInDirection(e, m, next) ==>
            r.0.nextDirection == next && r.1 == input &&
            r.0.direction == (if CanMoveInDirection(e, m, e.direction) then e.direction else None))
  {
    var buffered := GetBufferedInput(input);
    var next := if buffered != None then buffered else e.nextDirection;
    var e1 := e.(nextDirection := next);
    if IsAtTileCenter(e1) then
      if CanMoveInDirection(e1, m, next) then
        (e1.(direction := next, nextDirection := None), ClearBuffer(input))
      else if !CanMoveInDirection(e1, m, e1.direction) then
        (e1.(direction := None), input)
      else
        (e1, input)
    else
      (e1, input)
  }

  /** A quirk of `update` in pacman.js: at a centre with nothing queued or buffered, the
      test for heading None asks about Pac-Man's own tile, which is never a
      wall where he stands, so he stops. */
  lemma StopsAtCentreWithoutInput(e: Entity, m: Maze, input: InputHandler)
    requires TileConsistent(e) && IsAtTileCenter(e)
    requires GetBufferedInput(input) == None && e.nextDirection == None
    requires !IsWall(m, e.tileX, e.tileY)
    ensures Steer(e, m, input).0.direction == None
  {
    CanMoveIsNeighbourTest(e, m, None);
  }

  /** One update of Pac-Man: steer, move, animate, count down powered time.
      Returns the new Pac-Man and the input handler (whose buffer is emptied
      when a buffered turn is taken). */
  function Update(p: PacMan, m: Maze, input: InputHandler): (r: (PacMan, InputHandler))
    ensures Valid(p) ==> Valid(r.0)
    ensures r.1 == Steer(p.body, m, input).1
    ensures r.0.body.direction == Steer(p.body, m, input).0.direction
    ensures r.0.body.nextDirection == Steer(p.body, m, input).0.nextDirection
    ensures r.0.body == Move(Steer(p.body, m, input).0, m).(speed := r.0.body.speed)
    ensures r.0.animFrame == UpdateAnimation(p).animFrame && r.0.animCounter == UpdateAnimation(p).animCounter
    ensures p.powered && p.poweredTimer > 1 ==> r.0.powered && r.0.body.speed == p.body.speed
    ensures p.powered && p.poweredTimer > 0 ==> r.0.poweredTimer == p.poweredTimer - 1
    ensures p.powered && p.poweredTimer == 1 ==> !r.0.powered && r.0.body.speed == PacmanNormalSpeed
    ensures !p.powered ==> !r.0.powered && r.0.body.speed == p.body.speed
  {
    var (e, input') := Steer(p.body, m, input);
    var moved := p.(body := Move(e, m));
    (TickPower(UpdateAnimation(moved)), input')
  }

  /** Back to (x, y) at rest: no heading, nothing queued, not powered,
      normal speed, tile recomputed. Animation counters are kept. */
  function Reset(p: PacMan, x: real, y: real): (r: PacMan)
    ensures TileConsistent(r.body) && r.body.x == x && r.body.y == y
    ensures r.body.direction == None && r.body.nextDirection == None
    ensures !r.powered && r.poweredTimer == 0 && r.body.speed == PacmanNormalSpeed
    ensures r.animFrame == p.animFrame && r.animCounter == p.animCounter
    ensures Valid(p) ==> Valid(r)
  {
    var b := p.body.(x := x, y := y, direction := None, nextDirection := None, speed := PacmanNormalSpeed);
    p.(body := UpdateTilePosition(b), powered := false, poweredTimer := 0)
  }
}

=== FILE: wrappers.dfy ===
/** An optional value, for lookups and conversions that may find nothing. */
module Wrappers {

  datatype Option<+T> = Nothing | Some(value: T) {

    /** The value held, or the given default when there is none. */
    function GetOr(default: T): (r: T)
      ensures Some? ==> r == value
      ensures Nothing? ==> r == default
    {
      match this
      case Some(v) => v
      case Nothing => default
    }
  }
}
